=== FILE: README.md ===
# mini_fin in Dafny

A model of the bookkeeping and reporting core of mini_fin, a personal
expense tracker. It comes in two parts.

**The JSON expense API.** One API is written twice: `api/index.js` runs
Express on Postgres, and `api/index.php` runs plain PHP on SQLite. It keeps a
single-user store of categories and expenses. It offers:

- a category list and a category create;
- an expense list and an expense create;
- a daily summary, a per-category summary and, on Node only, a monthly
  rollup.

**The multi-user PHP app.** This covers `helpers.php`, `transactions.php`,
`categories.php` and `dashboard.php`. Each signed-in user owns income and
expense categories and transactions. Every read and write is scoped by the
user's id. The dashboard shows the month's income, expense and balance, an
expense breakdown by category, a daily trend and the five latest
transactions.

SQL queries become pure functions over sequences of rows. `WHERE` becomes a
filter. `GROUP BY … SUM` becomes grouping into buckets. `ORDER BY` becomes a
sort into a stated order. Writes are functions from store to store. Request
handlers return either a redirect or an `ApiError`, which stands in for an
`exit`.

| file | module | what |
|---|---|---|
| results.dfy | Results | `Option`, `Result` |
| text.dfy | Text | JS and PHP `trim`, PHP falsiness, substring, string order |
| sorting.dfy | Sorting | sortedness, insertion sort with a permutation guarantee |
| grouping.dfy | Grouping | `GROUP BY key` with `SUM` as buckets; `ORDER BY total DESC` and `ORDER BY key ASC` |
| calendar.dfy | Calendar | instants, days and Gregorian months |
| params.dfy | Params | how PHP and JS read query and body values |
| ledger.dfy | Ledger | the API's store and its constraints |
| reports.dfy | Reports | the API's window sums, listings and monthly rollup |
| api.dfy | Api | the API handlers and routing, per backend |
| books.dfy | Books | the app's records, session helpers, `fetch_categories`, user-scoped writes |
| transactions_page.dfy | TransactionsPage | transaction and quick-category forms, delete, edit lookup, filtered listing |
| categories_page.dfy | CategoriesPage | category form, delete, edit lookup |
| dashboard.dfy | Dashboard | month totals, breakdown, trend, recent list |

Several things that the source gets from its runtime are parameters of the
model instead:

- The clock: `now` is an instant and `today` is a day.
- Text-to-instant parsing: `parses` says whether Postgres accepts the text as a timestamp, and `toInstant` gives the instant it denotes.
- `validate_date` followed by reading the day: `parseDate`.

Instants are milliseconds since 1970-01-01 UTC, and days are calendar days
since that date. Amounts are integers, and the monthly average is a `real`.

## Model

| member | source | states |
|---|---|---|
| Api.WindowDays | api/index.js:91 | the window is at least one day, and 7 without `days`. A non-zero number n gives max(1, n). Text that is not a number, or 0, gives the default on Node, but 1 in PHP's `summaryDaily`, whose `(int)` cast reads it as 0 |
| Api.WindowStart | api/index.js:92 | the window starts at midnight of the day that is `days` calendar days before today |
| Api.SummaryWindowDays | api/index.php:174-175 | an expense is in the summary window iff its day is at most `days` days before today; there is no upper bound |
| Api.SummaryDaily | api/index.js:90-101 | one row per day, strictly ascending. A day has a row iff it is at most n days back and holds an expense. Each row's total is the sum of every expense of that day. PHP's `summaryDaily` promises the same with its own reading of `days` |
| Api.SummaryCategories | api/index.php:180-186 | rows have non-increasing totals and distinct joined ids. Every in-window expense's joined id has a row, and every row comes from such an expense. Each row carries the joined category's name and color (NULLs for the uncategorized group and a dangling id) and the sum of that group's in-window expenses. The totals add up to the window's sum. The same holds for the Node handler |
| Reports.DailyTotals | api/index.js:95-99 | the keys are exactly the days with an expense in the window, strictly ascending; each total is that day's reference sum; the totals add up to the window sum |
| Reports.CategoryTotals | api/index.js:111-118 | there is one row per joined category id. All uncategorized and dangling expenses share a single NULL row. Rows carry the category's name and color, have non-increasing totals, and add up to the window sum |
| Reports.JoinedId | api/index.js:114 | the LEFT JOIN yields the expense's category id iff a category with that id exists, else NULL |
| Reports.DaySumFromMidnight | api/index.js:97 | for a day at or after the window's start, the day's sum over the summary window equals its sum over all time |
| Api.SummaryMonthly | api/index.js:125-159 | a requested month is used as given. Without one, the month chosen contains `now`. The window holds an instant iff its day falls in the month. `daily` and `categories` are the daily and category summaries over that window, so each carries their guarantees. `total` is the window's sum and equals the sum of `daily` and of `categories`. `days_with_data` is the number of daily rows. The average times the month's length gives back the total. Every daily row lies in the month |
| Reports.MonthlyRollupFacts | api/index.js:130-159 | the daily sums, the category sums and `total` all agree. `days_with_data` is both the length of `daily` and the number of distinct days. `average_per_day` × days-in-month = `total`. Every reported day lies in the month |
| Reports.Average | api/index.js:158 | the average multiplied by the month's length gives back the total |
| Reports.DistinctDays | api/index.js:146 | the count equals the number of distinct days with an expense in the window |
| Calendar.DaysInMonth | api/index.js:151 | a month has 28 to 31 days. Only February has fewer than 30, and it has 29 exactly in leap years |
| Calendar.MonthWindowDays | api/index.js:133 | an instant lies in [first instant, last instant] of a month iff its day lies in the month |
| Calendar.MonthOfDay | api/index.js:127 | the month chosen for a day contains that day |
| Calendar.MonthOfDayUnique | dashboard.php:6-7 | a day lies in exactly one month, so the current month is well defined |
| Calendar.MonthsTile | dashboard.php:6-7 | each month's first day is the day after the previous month's last day |
| Reports.ListExpenses | api/index.js:57-64 | rows are ordered by `occurred_at` DESC, then id DESC. A row is listed iff it is an in-window expense joined to its category's name and color, uncategorized ones included. Rows are a permutation of the window's rows |
| Api.ListExpenses | api/index.php:114-139 | on Node a `from` or `to` that Postgres cannot read as a timestamp fails the request with a 500, and PHP never fails. Otherwise the listing keeps exactly the expenses within the present bounds, inclusive at both ends, newest first, and is a rearrangement of those joined rows. The bounds come from `dateRangeFromQuery` on PHP, and from the raw query values on Node |
| Api.Bound | api/index.js:48-71 | Node imposes a bound iff the value is non-empty, and fails with a 500 iff that value does not read as a timestamp. PHP never fails, and imposes a bound iff the value and its trimmed form are truthy. The bound is the instant the text denotes |
| Api.DateRangeBound | api/index.php:199-204 | the result is null iff the value is absent or falsy; otherwise it is the value without surrounding spaces |
| Api.BlankBoundIgnored | api/index.php:120-127 | a PHP `from`/`to` made only of spaces imposes no bound |
| Api.ListCategories | api/index.js:17-24 | every category appears, as often as stored, by name ascending. PHP's `listCategories` does the same |
| Api.CreateCategory | api/index.php:90-111 | "Category name is required." iff the name is blank after trimming, and the store is untouched. "Category already exists." iff the trimmed name is taken. On Node that refusal still uses up the next category id, while PHP's SQLite leaves the store as it was. On success the trimmed name is appended under the next id with its color (a falsy color stored as NULL on PHP), and the expenses are unchanged. Each backend uses its own trim |
| Api.CreateCategoryTwice | api/index.js:30-36 | re-sending a stored name is refused as a duplicate |
| Api.DuplicateSkipsId | api/index.js:30-34 | a taken name is refused as a duplicate and a free one is then created. After the refused duplicate on Node, the next category created gets the id after the one the refusal drew, leaving a gap; on PHP it gets the id the refusal did not use |
| Api.CreateCategoryKeepsValid | api/migrate.js:19-24 | whether it creates a category or refuses one, the request keeps ids unique, names unique and references resolvable |
| Api.Nullable | api/index.php:163 | PHP stores a note as NULL iff its trimmed form is "" or "0", and otherwise stores the trimmed text. Node stores any non-empty text as sent |
| Api.CreateExpense | api/index.js:73-88 | each error holds iff the earlier checks passed and its own failed. The checks run in this order: amount, then `category_id`, then `occurred_at`. Node refuses a falsy `category_id` (0 included). Postgres answers 500 for a non-numeric amount or an `occurred_at` it cannot read as a timestamp, leaving the store as it was. It also answers 500 for an unknown category, which has already used up an expense id. Every other refusal leaves the store untouched. PHP's `createExpense` reads a non-numeric amount as 0, refuses only a null or empty `category_id`, trims `occurred_at`, and stores an unknown category. On success exactly one row is appended under the next id |
| Api.CreateExpenseKeepsValid | api/migrate.js:28-35 | whether it inserts an expense or refuses one, the request keeps the store valid; on Postgres every category reference still resolves |
| Api.Route | api/index.php:54-82 | each (method, path) pair reaches the endpoint stated here. GET or POST on `categories` and `expenses` reach their list and create handlers. GET on `summary/daily` and `summary/categories` reaches the summaries. `health` is answered for any method on PHP and only for GET on Node. The monthly summary is reached only on Node, by GET. Every other request is "Not found". Node registers the same pairs in api/index.js |
| Ledger.InsertCategory | api/index.js:30-35 | the insert fails iff the name is taken, and then adds no row. Postgres's `ON CONFLICT DO NOTHING` has already drawn the serial id, so the sequence still advances; SQLite's does not. Otherwise the new row is appended under the next id, and the expenses are untouched either way |
| Ledger.InsertCategoryKeepsValid | api/migrate.js:19-24 | inserting a category, or failing to, keeps the store's key, name and reference constraints |
| Ledger.InsertExpense | api/index.js:79-83 | the insert fails iff the foreign key is enforced and the category does not exist. The id is drawn before that check, so the sequence advances either way. Otherwise one expense is appended under the drawn id |
| Ledger.InsertExpenseKeepsValid | api/migrate.js:28-35 | inserting an expense, or failing to, keeps the constraints, and keeps references resolvable when the key is enforced |
| Ledger.DeleteCategory | api/migrate.js:30 | deleting a category removes exactly that category. Every expense stays, and references to it become NULL |
| Ledger.DeleteCategoryKeepsValid | api/migrate.js:30 | after ON DELETE SET NULL no expense points at a missing category |
| Books.CurrentUserId | helpers.php:33-36 | there is no user id without a session user; any id returned is the session user's |
| Books.RequireUserId | helpers.php:38-45 | it returns only a truthy id, the session's. With no id or id 0 it redirects to logout with the session-expired message |
| Books.ParseType | transactions.php:35 | only the exact words "income" and "expense" name a type, each naming its own |
| Books.FetchCategories | helpers.php:47-62 | it lists exactly the user's categories (none without a user), restricted to `type` iff `type` is truthy, sorted by name ascending, with no duplicate when the stored rows have none |
| Books.MergedCategoriesAreAll | transactions.php:126-128 | the income list followed by the expense list holds exactly the user's categories |
| Books.CategoryInput | transactions.php:14-16 | a category form is refused iff the trimmed name is empty or the type is not one of the two. Otherwise it yields the trimmed name and the type |
| Books.AddCategory | categories.php:32-33 | the new category is appended, stamped with the user's id |
| Books.UpdateCategory | categories.php:28-29 | exactly the row matching both id and user is rewritten; every other row is unchanged |
| Books.DeleteCategory | categories.php:10-11 | exactly the rows matching both id and user are removed |
| Books.FindCategory | categories.php:42-44 | it finds a row only if the row matches both id and user, and finds nothing iff no row does |
| Books.AddTransaction | transactions.php:60-68 | the new row is appended, stamped with the user's id and carrying the form's values |
| Books.UpdateTransaction | transactions.php:47-58 | exactly the row matching both id and user takes the form's values; every other row is unchanged |
| Books.DeleteTransaction | transactions.php:75-77 | exactly the rows matching both id and user are removed |
| Books.FindTransaction | transactions.php:81-84 | it finds a row only if the row matches both id and user, and finds nothing iff no row does |
| Books.OtherUsersUnaffected | transactions.php:47-77 | no insert, update or delete by one user changes another user's rows |
| Books.WritesKeepValid | categories.php:26-35 | every write keeps ids unique and below their sequence |
| Books.AddedTransactionFound | transactions.php:60-88 | after an insert, the edit lookup by the new id finds the new row |
| TransactionsPage.ValidateTransaction | transactions.php:25-44 | every failing check adds its message, in check order. Each message is present iff its check fails: invalid date, type not one of the two, falsy category, amount ≤ 0 |
| TransactionsPage.ValidationMatchesAccepted | transactions.php:46 | the form has no error iff it yields values to write |
| TransactionsPage.Accepted | transactions.php:25-31 | accepted values carry the form's day (today's when no date is sent), the type its word names, the form's non-zero category id, the amount as PHP casts it (positive), and the note without surrounding spaces |
| TransactionsPage.HandleTransactions | transactions.php:12-79 | a valid quick-category form adds the category and redirects. Otherwise a shown page leaves the books unchanged, and its errors are the quick form's message (if that form was sent) followed by the transaction checks' messages. A transaction form with no error and no quick form is written: an update iff `transaction_id` is truthy, else an insert. An insert appends one row stamped with the user and leaves categories alone. An update or delete goes through the user-scoped write. `delete_id` always redirects, and when no write came first it deletes, even after failed forms. Its check sits outside the POST branch, but `$_POST` holds it only on a POST, so the model takes `delete_id` only with a POST. Only the four success messages redirect |
| TransactionsPage.EditTransaction | transactions.php:81-88 | with `edit` present, it yields only a row the user owns with that id, and yields not-found iff there is none |
| TransactionsPage.ListTransactions | transactions.php:90-124 | it lists exactly the user's rows passing the applied filters, joined to their category name (uncategorized ones kept), ordered by date DESC, then id DESC |
| TransactionsPage.IgnoredFilters | transactions.php:100-119 | an unknown type, a blank search and dates that do not parse change nothing |
| TransactionsPage.UnfilteredListing | transactions.php:97-98 | with no filter the listing holds every row of the user, and only those |
| TransactionsPage.SameSelectionSameListing | transactions.php:97-121 | filters that select the same rows produce the same listing |
| CategoriesPage.ValidateCategory | categories.php:15-24 | both checks run. Each message appears at most once, iff its check fails, the name message before the type message. The errors are empty iff the form yields a name and a type |
| CategoriesPage.HandleCategories | categories.php:8-37 | `delete_id` deletes and redirects before any check. Errors leave the books unchanged and are shown as the checks produce them. A valid form always redirects: a truthy `id` updates the user's row, and otherwise a row owned by the user is inserted. Only the three success messages redirect, all to categories.php |
| CategoriesPage.EditCategory | categories.php:39-48 | only a truthy id is looked up. It never yields a row of another user, and yields not-found iff the user has no such row |
| CategoriesPage.AddedCategoryListed | categories.php:32-34 | an added category shows up in the user's list of its type, and another user's list is unchanged |
| Dashboard.Summarise | dashboard.php:9-25 | income and expense are the month's per-type reference sums (0 for a type with no rows), and the balance is their difference |
| Dashboard.FoldPicksRow | dashboard.php:17-24 | with one row per type, the fold picks each type's row, or 0 if there is none |
| Dashboard.Breakdown | dashboard.php:27 | There is one row per category name, with non-increasing totals. A name appears iff some month expense joins to it, carrying those expenses' sum. The rows plus the expenses the join drops add up to the month's expense |
| Dashboard.Trend | dashboard.php:31 | one row per date with a transaction this month, strictly ascending. Each row holds that day's income and expense. Each column adds up to the month's total of its type |
| Dashboard.OwnedRows | dashboard.php:35 | it lists exactly the user's transactions, each joined to its category name |
| Dashboard.Recent | dashboard.php:35 | it lists min(5, n) of the user's rows, newest first, drawn from the user's rows. No row left out is newer than a listed one |

## Left out

- HTTP plumbing is not modelled. That covers CORS headers, `OPTIONS`, status codes, the `json_decode` "Invalid JSON payload." answer and Express body parsing. A request body arrives already decoded into its fields.
- Api.CreateCategory: body fields that are not strings, such as a JSON number or boolean, are not modelled. The fields are typed as optional text. PHP declares `strict_types`, so `trim` of such a `name` or `color` raises a TypeError, and the catch in the front controller answers 500. On Node a non-string `name` raises on `.trim()`, while a non-string `color` is stored through `color || null`.
- Api.CreateExpense: body fields that are not strings are not modelled either. In PHP, `trim` of a non-string `note` or `occurred_at` raises a TypeError, which is answered with 500. Node accepts the same bodies: `note || null` stores the value, and `occurred_at` goes to Postgres as it is.
- Reading numbers from text is reduced to three cases: absent, not a number, or an integer. Partly numeric text such as "12abc", fractional amounts and the `(float)` casts are not modelled. All amounts are integers.
- Time zones are not modelled: every truncation to a day is taken in UTC. The source mixes server-local time (luxon `now`, `DateTimeImmutable`, PHP `date()`) with UTC (`fromISO(…, {zone: 'utc'})`).
- The monthly route takes the requested month as an already-parsed `YYYY-MM`. What luxon does with an invalid `month` string is not modelled.
- SQLite compares `occurred_at` as text, and PHP orders by `datetime(occurred_at)`. The model compares parsed instants instead. SQLite stores `occurred_at` text it cannot read as it is, and the model still gives such text the instant `toInstant` assigns it.
- Api.ListCategories: `ORDER BY name` is modelled as code-point order. Postgres sorts under the database collation, which is usually linguistic, so "apple" and "Banana" can come out the other way round.
- Books.FetchCategories: `ORDER BY name` is modelled as code-point order. MySQL's default `utf8mb4` collation ignores case, so the source may order names differently.
- Dashboard.Breakdown: `GROUP BY c.name` is modelled as exact string equality. Under MySQL's case-insensitive collation "Food" and "food" form one group, while the model gives two rows.
- `LIKE` collation and `%`/`_` inside the search text are not modelled. Search is plain substring containment.
- Api.SummaryMonthly: the `daysInMonth ? … : 0` fallback is not modelled, because a month always has 28 to 31 days.
- A category delete in the multi-user app leaves transactions untouched. The MySQL schema of that app is not part of this model, so a cascade or SET NULL there is not modelled.
- Express matching details are not modelled: HEAD requests, trailing slashes and case-insensitive paths. PHP's stripping of slashes from the request path is also left out: `Route` takes the path already stripped.
- Books.JoinRow, which the dashboard and the transaction listing share, takes the first category row with the joined id. This matches the SQL join only because ids are primary keys.
- An id sent as text is reduced to three cases: missing, empty, or a number. That covers `category_id`, `transaction_id`, `delete_id`, `edit` and the category filter. On Node the text "0" is truthy, but the model reads it as the number 0, which Node refuses. Id text that is not a number is not modelled.
- Sessions and authentication are left out (login, register, header.php), and so are flash rendering and all HTML and chart output.
- `created_at` columns and `GET categories`' extra fields are not modelled, because no behaviour depends on them.

=== FILE: api.dfy ===
/** The JSON API, in its two interchangeable backends: `api/index.js`
    (Express on Postgres) and `api/index.php` (plain PHP on SQLite). A
    handler is a function from the store, the clock reading `now` and the
    decoded request to a response or an `ApiError`; a write returns the new
    store. Text-to-instant parsing is the parameter `toInstant`. */
module Api {
  import opened Results
  import opened Text
  import opened Sorting
  import opened Grouping
  import opened Calendar
  import opened Ledger
  import opened Params
  import Reports

  /** Which implementation answers the request. */
  datatype Backend = Node | Php

  /** A rejected request: 400 with a message, or 500 "Server error". */
  datatype ApiError = BadRequest(message: string) | ServerError

  const NameRequired := "Category name is required."
  const CategoryExists := "Category already exists."
  const AmountInvalid := "Amount must be greater than zero."
  const CategoryRequired := "Category is required."
  const OccurredAtRequired := "occurred_at is required (ISO date or datetime)."

  function Max(a: int, b: int): int {
    if a < b then b else a
  }

  /** The `days` of a summary: `Math.max(1, Number(days) || dflt)` on Node,
      `max(1, (int)($_GET['days'] ?? dflt))` on PHP. Both clamp to at least
      one day and honour a non-zero number; they part ways on text that is
      not a number and on 0, which Node reads as "use the default" and PHP
      reads as 0 and so as one day. */
  function WindowDays(b: Backend, days: NumParam, dflt: int): (n: int)
    requires dflt >= 1
    ensures n >= 1
    ensures days.Absent? ==> n == dflt
    ensures days.Numeric? && days.n != 0 ==> n == Max(1, days.n)
    ensures (days.NotNumeric? || days == Numeric(0)) ==> n == (if b == Node then dflt else 1)
  {
    match b
    case Node =>
      // Number(undefined) and Number("abc") are NaN, and NaN || dflt is dflt, as is 0 || dflt
      var v := if days.Numeric? && days.n != 0 then days.n else dflt;
      Max(1, v)
    case Php =>
      // (int)"abc" is 0
      var v := match days
        case Absent => dflt
        case NotNumeric => 0
        case Numeric(k) => k;
      Max(1, v)
  }

  /** `DateTime.now().minus({ days }).startOf('day')` on Node and
      `(new DateTimeImmutable())->modify("-N days")->setTime(0, 0)` on PHP:
      midnight `days` calendar days before today. */
  function WindowStart(now: int, days: int): (t: int)
    ensures t == StartOfDay(DayOf(now) - days)
  {
    DayOfShift(now, days);
    StartOfDay(DayOf(now - days * MillisPerDay))
  }

  /** The window of a summary: from that midnight on, with no upper bound. */
  function SummaryWindow(now: int, days: int): Reports.Window {
    Reports.Window(Some(WindowStart(now, days)), None)
  }

  /** An expense is in the summary window exactly when its day is at most
      `days` days before today; future expenses are included. */
  lemma SummaryWindowDays(now: int, days: int, t: int)
    ensures Reports.InWindow(SummaryWindow(now, days), t) <==> DayOf(now) - days <= DayOf(t)
  {
    AtOrAfterStartOfDay(DayOf(now) - days, t);
  }

  /** `GET summary/daily` (7 days by default): one row per day from `days`
      days ago on that has an expense, strictly ascending, each carrying
      the sum of every expense of that day. */
  function SummaryDaily(b: Backend, st: Store, now: int, days: NumParam): (rows: seq<Bucket<int>>)
    ensures forall i, j :: 0 <= i < j < |rows| ==> rows[i].key < rows[j].key
    ensures forall d :: d in BucketKeys(rows) <==>
      DayOf(now) - WindowDays(b, days, 7) <= d && exists e :: e in st.expenses && DayOf(e.occurredAt) == d
    ensures forall i :: 0 <= i < |rows| ==>
      rows[i].total == Reports.DaySum(st.expenses, Reports.AllTime, rows[i].key)
  {
    var n := WindowDays(b, days, 7);
    var w := SummaryWindow(now, n);
    var rows := Reports.DailyTotals(st.expenses, w);
    SummaryDailyFacts(st.expenses, now, n, rows);
    rows
  }

  lemma SummaryDailyFacts(es: seq<Expense>, now: int, n: int, rows: seq<Bucket<int>>)
    requires rows == Reports.DailyTotals(es, SummaryWindow(now, n))
    ensures forall d :: d in BucketKeys(rows) <==>
      DayOf(now) - n <= d && exists e :: e in es && DayOf(e.occurredAt) == d
    ensures forall i :: 0 <= i < |rows| ==> rows[i].total == Reports.DaySum(es, Reports.AllTime, rows[i].key)
  {
    forall d ensures d in BucketKeys(rows) <==> DayOf(now) - n <= d && exists e :: e in es && DayOf(e.occurredAt) == d {
      SummaryDayKey(es, now, n, rows, d);
    }
    forall i | 0 <= i < |rows| ensures rows[i].total == Reports.DaySum(es, Reports.AllTime, rows[i].key) {
      SummaryDayTotal(es, now, n, rows, i);
    }
  }

  lemma SummaryDayTotal(es: seq<Expense>, now: int, n: int, rows: seq<Bucket<int>>, i: int)
    requires rows == Reports.DailyTotals(es, SummaryWindow(now, n))
    requires 0 <= i < |rows|
    ensures rows[i].total == Reports.DaySum(es, Reports.AllTime, rows[i].key)
  {
    var d := rows[i].key;
    assert d in BucketKeys(rows);
    SummaryDayKey(es, now, n, rows, d);
    assert DayOf(now) - n <= d;
    Reports.DaySumFromMidnight(es, DayOf(now) - n, d);
  }

  lemma SummaryDayKey(es: seq<Expense>, now: int, n: int, rows: seq<Bucket<int>>, d: int)
    requires rows == Reports.DailyTotals(es, SummaryWindow(now, n))
    ensures d in BucketKeys(rows) <==> DayOf(now) - n <= d && exists e :: e in es && DayOf(e.occurredAt) == d
  {
    var w := SummaryWindow(now, n);
    assert BucketKeys(rows) == Reports.DaysWithData(es, w);
    if d in Reports.DaysWithData(es, w) {
      var e :| e in es && Reports.InWindow(w, e.occurredAt) && DayOf(e.occurredAt) == d;
      SummaryWindowDays(now, n, e.occurredAt);
    }
    if DayOf(now) - n <= d && exists e :: e in es && DayOf(e.occurredAt) == d {
      var e :| e in es && DayOf(e.occurredAt) == d;
      SummaryWindowDays(now, n, e.occurredAt);
      assert d in Reports.DaysWithData(es, w);
    }
  }

  /** `GET summary/categories` (30 days by default): one row per joined
      category id among the expenses from `days` days ago on, the
      uncategorized ones in the single NULL row, each carrying the joined
      category's name and color and the sum of its expenses in the window,
      totals non-increasing and adding up to the window's sum. */
  function SummaryCategories(b: Backend, st: Store, now: int, days: NumParam): (rows: seq<Reports.CategoryRow>)
    ensures forall i, j :: 0 <= i < j < |rows| ==> rows[i].total >= rows[j].total
    ensures forall i, j :: 0 <= i < j < |rows| ==> rows[i].id != rows[j].id
    ensures forall e :: e in st.expenses && DayOf(now) - WindowDays(b, days, 30) <= DayOf(e.occurredAt) ==>
      exists i :: 0 <= i < |rows| && rows[i].id == Reports.JoinedId(st.categories, e)
    ensures forall i :: 0 <= i < |rows| ==> exists e ::
      e in st.expenses && DayOf(now) - WindowDays(b, days, 30) <= DayOf(e.occurredAt)
      && Reports.JoinedId(st.categories, e) == rows[i].id
    ensures forall i :: 0 <= i < |rows| ==>
      rows[i] == Reports.DescribeGroup(st.categories, rows[i].id,
        Reports.CategorySum(st.categories, st.expenses, SummaryWindow(now, WindowDays(b, days, 30)), rows[i].id))
    ensures Reports.RowsTotal(rows) == Reports.WindowTotal(st.expenses, SummaryWindow(now, WindowDays(b, days, 30)))
  {
    var n := WindowDays(b, days, 30);
    var w := SummaryWindow(now, n);
    var rows := Reports.CategoryTotals(st.categories, st.expenses, w);
    SummaryCategoriesFacts(st, now, n, rows);
    rows
  }

  lemma SummaryCategoriesFacts(st: Store, now: int, n: int, rows: seq<Reports.CategoryRow>)
    requires rows == Reports.CategoryTotals(st.categories, st.expenses, SummaryWindow(now, n))
    ensures forall e :: e in st.expenses && DayOf(now) - n <= DayOf(e.occurredAt) ==>
      exists i :: 0 <= i < |rows| && rows[i].id == Reports.JoinedId(st.categories, e)
    ensures forall i :: 0 <= i < |rows| ==> exists e ::
      e in st.expenses && DayOf(now) - n <= DayOf(e.occurredAt)
      && Reports.JoinedId(st.categories, e) == rows[i].id
  {
    var w := SummaryWindow(now, n);
    SummaryWindowAll(st.expenses, now, n);
    forall e | e in st.expenses && DayOf(now) - n <= DayOf(e.occurredAt)
      ensures exists i :: 0 <= i < |rows| && rows[i].id == Reports.JoinedId(st.categories, e)
    {
      assert Reports.JoinedId(st.categories, e) in Reports.CategoriesWithData(st.categories, st.expenses, w);
    }
    forall i | 0 <= i < |rows| ensures exists e ::
      e in st.expenses && DayOf(now) - n <= DayOf(e.occurredAt) && Reports.JoinedId(st.categories, e) == rows[i].id
    {
      assert rows[i].id in Reports.CategoriesWithData(st.categories, st.expenses, w);
    }
  }

  lemma SummaryWindowAll(es: seq<Expense>, now: int, n: int)
    ensures forall e :: e in es ==>
      (Reports.InWindow(SummaryWindow(now, n), e.occurredAt) <==> DayOf(now) - n <= DayOf(e.occurredAt))
  {
    forall e | e in es
      ensures Reports.InWindow(SummaryWindow(now, n), e.occurredAt) <==> DayOf(now) - n <= DayOf(e.occurredAt)
    {
      SummaryWindowDays(now, n, e.occurredAt);
    }
  }

  /** `GET summary/monthly` (Node only): the rollup of the requested month,
      or of the month holding `now` when none is given. `month` is the
      already-read `YYYY-MM` value; absent or empty text is `None`. The
      daily and category parts are the two summaries over the month's
      window; the three sums agree, the average spreads the total over every
      day of the month, and `days_with_data` counts the days with data. */
  function SummaryMonthly(st: Store, now: int, month: Option<YearMonth>): (m: Reports.Monthly)
    ensures month.Some? ==> m.month == month.value
    ensures month.None? ==> MonthStart(m.month) <= now <= MonthEnd(m.month)
    ensures forall t :: Reports.InWindow(Reports.MonthWindow(m.month), t) <==>
      FirstDay(m.month) <= DayOf(t) <= LastDay(m.month)
    ensures m.daily == Reports.DailyTotals(st.expenses, Reports.MonthWindow(m.month))
    ensures m.categories == Reports.CategoryTotals(st.categories, st.expenses, Reports.MonthWindow(m.month))
    ensures m.total == Reports.WindowTotal(st.expenses, Reports.MonthWindow(m.month))
    ensures BucketsTotal(m.daily) == m.total && Reports.RowsTotal(m.categories) == m.total
    ensures m.daysWithData == |m.daily|
    ensures Reports.AverageOf(m.averagePerDay, m.total, DaysInMonth(m.month.year, m.month.month))
    ensures forall i :: 0 <= i < |m.daily| ==> FirstDay(m.month) <= m.daily[i].key <= LastDay(m.month)
  {
    var ym := month.GetOr(MonthOfDay(DayOf(now)));
    MonthWindowDays(ym, now);
    MonthWindowAll(ym);
    Reports.MonthlyRollupFacts(st, ym);
    Reports.MonthlyRollup(st, ym)
  }

  lemma MonthWindowAll(ym: YearMonth)
    ensures forall t :: Reports.InWindow(Reports.MonthWindow(ym), t) <==> FirstDay(ym) <= DayOf(t) <= LastDay(ym)
  {
    forall t ensures Reports.InWindow(Reports.MonthWindow(ym), t) <==> FirstDay(ym) <= DayOf(t) <= LastDay(ym) {
      MonthWindowDays(ym, t);
    }
  }

  /** PHP's `dateRangeFromQuery` for one bound: a truthy value trimmed, else null. */
  function DateRangeBound(q: Option<string>): (r: Option<string>)
    ensures r.None? <==> q.None? || PhpFalsy(q.value)
    ensures r.Some? ==> exists i :: SpacesAround(q.value, i, r.value, IsPhpSpace)
    ensures r.Some? && r.value != [] ==> !IsPhpSpace(r.value[0]) && !IsPhpSpace(r.value[|r.value| - 1])
  {
    if q.Some? && !PhpFalsy(q.value) then Some(Trim(q.value, IsPhpSpace)) else None
  }

  /** The `occurred_at` bound a `from`/`to` query value imposes: Node adds
      it when the text is non-empty and hands the raw text to Postgres,
      which refuses text it cannot read as a timestamp (500); PHP trims it
      first, adds it when the trimmed text is truthy, and SQLite compares
      whatever it is given. */
  function Bound(b: Backend, q: Option<string>, parses: string -> bool, toInstant: string -> int): (r: Result<Option<int>, ApiError>)
    ensures r.Err? <==> b == Node && q.Some? && q.value != "" && !parses(q.value)
    ensures r.Err? ==> r.error == ServerError
    ensures b == Node && r.Ok? ==> (r.value.Some? <==> q.Some? && q.value != "")
    ensures b == Php ==> r.Ok? && (r.value.Some? <==> q.Some? && !PhpFalsy(q.value) && !PhpFalsy(Trim(q.value, IsPhpSpace)))
    ensures r.Ok? && r.value.Some? ==> r.value.value == toInstant(if b == Node then q.value else Trim(q.value, IsPhpSpace))
  {
    match b
    case Node =>
      if q.Some? && q.value != "" then
        if parses(q.value) then Ok(Some(toInstant(q.value))) else Err(ServerError)
      else Ok(None)
    case Php =>
      var t := DateRangeBound(q);
      Ok(if t.Some? && !PhpFalsy(t.value) then Some(toInstant(t.value)) else None)
  }

  /** A PHP `from`/`to` made only of spaces imposes no bound at all. */
  lemma BlankBoundIgnored(q: string, parses: string -> bool, toInstant: string -> int)
    requires q != "" && AllSpace(q, IsPhpSpace)
    ensures Bound(Php, Some(q), parses, toInstant) == Ok(None)
  {
  }

  /** `GET expenses`: the expenses between the optional inclusive bounds,
      with their category's name and color when it exists, newest first and
      highest id first among equal instants. On Node a bound Postgres cannot
      read fails the whole query with a 500. */
  function ListExpenses(b: Backend, st: Store, from: Option<string>, to: Option<string>,
                        parses: string -> bool, toInstant: string -> int): (r: Result<seq<Reports.ExpenseRow>, ApiError>)
    ensures r.Err? <==> Bound(b, from, parses, toInstant).Err? || Bound(b, to, parses, toInstant).Err?
    ensures r.Err? ==> r.error == ServerError && b == Node
    ensures r.Ok? ==> SortedBy(r.value, Reports.NewerOrSame)
    ensures r.Ok? ==>
      var lo := Bound(b, from, parses, toInstant).value;
      var hi := Bound(b, to, parses, toInstant).value;
      && (forall row :: row in r.value <==> exists e ::
           && e in st.expenses && row == Reports.JoinRow(st.categories, e)
           && (lo.None? || lo.value <= e.occurredAt)
           && (hi.None? || e.occurredAt <= hi.value))
      && multiset(r.value) == multiset(Reports.WindowRows(st.categories, st.expenses, Reports.Window(lo, hi)))
  {
    var lo := Bound(b, from, parses, toInstant);
    var hi := Bound(b, to, parses, toInstant);
    if lo.Err? || hi.Err? then Err(ServerError)
    else Ok(Reports.ListExpenses(st, Reports.Window(lo.value, hi.value)))
  }

  /** `GET categories`: every category, by name ascending. */
  function ListCategories(st: Store): (r: seq<Category>)
    ensures SortedBy(r, NameLe)
    ensures multiset(r) == multiset(st.categories)
  {
    KeyOrderIsPreorder(NameLe, (c: Category) => c.name);
    SortBy(st.categories, NameLe)
  }

  predicate NameLe(a: Category, b: Category) {
    StrLe(a.name, b.name)
  }


  /** The whitespace each backend's `trim` strips. */
  function SpaceOf(b: Backend): char -> bool {
    if b == Node then IsJsSpace else IsPhpSpace
  }

  /** How an optional text field is stored: Node's `x || null` keeps any
      non-empty text as sent; PHP's `trim(x ?? '') ?: null` trims it and
      stores NULL for a falsy result ("" or "0"). */
  function Nullable(b: Backend, x: Option<string>): (r: Option<string>)
    ensures b == Node ==> r == (if x.Some? && x.value != "" then x else None)
    ensures b == Php ==> (r.None? <==> x.None? || PhpFalsy(Trim(x.value, IsPhpSpace)))
    ensures b == Php && r.Some? ==> r.value == Trim(x.value, IsPhpSpace) && !PhpFalsy(r.value)
  {
    match b
    case Node => if x.Some? && x.value != "" then x else None
    case Php =>
      var t := Trim(x.GetOr(""), IsPhpSpace);
      if PhpFalsy(t) then None else Some(t)
  }

  /** The effect of a create request: the store afterwards and the answer.
      A refused request may still have used up an id of a sequence. */
  datatype Reply<T> = Reply(store: Store, result: Result<T, ApiError>)

  /** The decoded body of `POST categories`. */
  datatype CategoryBody = CategoryBody(name: Option<string>, color: Option<string>)

  /** `POST categories`: a name that is empty after trimming is refused,
      then a name already taken is refused; otherwise the trimmed name is
      stored with the color and the new category is returned. On Node the
      refused duplicate has already drawn an id from the serial sequence. */
  function CreateCategory(b: Backend, st: Store, body: CategoryBody): (r: Reply<Category>)
    ensures r.result == Err(BadRequest(NameRequired)) <==> AllSpace(body.name.GetOr(""), SpaceOf(b))
    ensures r.result == Err(BadRequest(CategoryExists)) <==>
      !AllSpace(body.name.GetOr(""), SpaceOf(b)) && NameTaken(st.categories, Trim(body.name.GetOr(""), SpaceOf(b)))
    ensures r.result.Err? ==> r.result == Err(BadRequest(NameRequired)) || r.result == Err(BadRequest(CategoryExists))
    ensures r.result == Err(BadRequest(NameRequired)) ==> r.store == st
    ensures r.result == Err(BadRequest(CategoryExists)) ==>
      r.store == (if b == Node then st.(nextCategoryId := st.nextCategoryId + 1) else st)
    ensures r.result.Ok? ==> var c := r.result.value;
      && c.name == Trim(body.name.value, SpaceOf(b)) && c.name != ""
      && c.color == Nullable(b, body.color)
      && c.id == st.nextCategoryId
      && r.store.categories == st.categories + [c]
      && r.store.expenses == st.expenses
  {
    var blank := match b
      case Node => body.name.None? || body.name.value == "" || Trim(body.name.value, IsJsSpace) == ""
      case Php => Trim(body.name.GetOr(""), IsPhpSpace) == "";
    if blank then Reply(st, Err(BadRequest(NameRequired)))
    else
      var w := InsertCategory(st, b == Node, Trim(body.name.value, SpaceOf(b)), Nullable(b, body.color));
      match w.result
      case Err(_) => Reply(w.store, Err(BadRequest(CategoryExists)))
      case Ok(c) => Reply(w.store, Ok(c))
  }

  /** A category request, answered or refused, keeps the store's constraints. */
  lemma CreateCategoryKeepsValid(b: Backend, st: Store, body: CategoryBody)
    requires Valid(st) && ReferencesResolve(st)
    ensures var r := CreateCategory(b, st, body);
      Valid(r.store) && ReferencesResolve(r.store)
  {
    if !AllSpace(body.name.GetOr(""), SpaceOf(b)) {
      InsertCategoryKeepsValid(st, b == Node, Trim(body.name.value, SpaceOf(b)), Nullable(b, body.color));
    }
  }

  /** Sending back the name a category was stored under is refused as a
      duplicate: the stored name is already trimmed. */
  lemma CreateCategoryTwice(b: Backend, st: Store, body: CategoryBody, color: Option<string>)
    requires CreateCategory(b, st, body).result.Ok?
    ensures var r := CreateCategory(b, st, body);
      CreateCategory(b, r.store, CategoryBody(Some(r.result.value.name), color)).result == Err(BadRequest(CategoryExists))
  {
    var r := CreateCategory(b, st, body);
    TrimIdempotent(body.name.value, SpaceOf(b));
    assert r.result.value in r.store.categories;
  }

  /** On Node a refused duplicate leaves a gap in the ids: the next category
      created gets the id after the one the refused request drew. SQLite
      leaves no gap. */
  lemma DuplicateSkipsId(b: Backend, st: Store, dup: CategoryBody, next: CategoryBody)
    requires !AllSpace(dup.name.GetOr(""), SpaceOf(b)) && NameTaken(st.categories, Trim(dup.name.GetOr(""), SpaceOf(b)))
    requires !AllSpace(next.name.GetOr(""), SpaceOf(b)) && !NameTaken(st.categories, Trim(next.name.GetOr(""), SpaceOf(b)))
    ensures CreateCategory(b, st, dup).result == Err(BadRequest(CategoryExists))
    ensures CreateCategory(b, CreateCategory(b, st, dup).store, next).result.Ok?
    ensures CreateCategory(b, CreateCategory(b, st, dup).store, next).result.value.id ==
      st.nextCategoryId + (if b == Node then 1 else 0)
  {
    var st1 := CreateCategory(b, st, dup).store;
    assert st1.nextCategoryId == st.nextCategoryId + (if b == Node then 1 else 0);
  }

  /** The decoded body of `POST expenses`. */
  datatype ExpenseBody = ExpenseBody(amount: NumParam, categoryId: IdParam, note: Option<string>, occurredAt: Option<string>)

  /** The amount check: Node's `!amount || Number(amount) <= 0` (text that
      is not a number gets through, as `NaN <= 0` is false); PHP's
      `(float)($body['amount'] ?? 0) <= 0` (such text reads as 0). */
  predicate AmountRejected(b: Backend, a: NumParam) {
    match a
    case Absent => true
    case NotNumeric => b == Php
    case Numeric(n) => n <= 0
  }

  /** The category check: Node's `!category_id` also refuses the number 0;
      PHP's `=== null || === ''` does not. */
  predicate CategoryIdRejected(b: Backend, c: IdParam) {
    match c
    case Missing => true
    case Blank => true
    case Id(n) => b == Node && n == 0
  }

  /** The `occurred_at` check: Node's `!occurred_at`; PHP's `trim(…) === ''`. */
  predicate OccurredAtRejected(b: Backend, t: Option<string>) {
    match b
    case Node => t.None? || t.value == ""
    case Php => Trim(t.GetOr(""), IsPhpSpace) == ""
  }

  /** `POST expenses`: the amount, category and `occurred_at` checks in this
      order, the first failure answering the request; then the row is
      inserted. Postgres refuses an amount that is not a number and an
      `occurred_at` it cannot read as a timestamp while binding the
      parameters, before any id is drawn, and an unknown category through
      the foreign key, after the row took its id (500); SQLite refuses none
      of these. */
  function CreateExpense(b: Backend, st: Store, body: ExpenseBody, parses: string -> bool, toInstant: string -> int): (r: Reply<int>)
    ensures r.result == Err(BadRequest(AmountInvalid)) <==>
      body.amount.Absent? || (body.amount.Numeric? && body.amount.n <= 0) || (b == Php && body.amount.NotNumeric?)
    ensures r.result == Err(BadRequest(CategoryRequired)) <==>
      && !AmountRejected(b, body.amount)
      && (body.categoryId.Missing? || body.categoryId.Blank? || (b == Node && body.categoryId == Id(0)))
    ensures r.result == Err(BadRequest(OccurredAtRequired)) <==>
      !AmountRejected(b, body.amount) && !CategoryIdRejected(b, body.categoryId) &&
      (if b == Node then body.occurredAt.GetOr("") == "" else AllSpace(body.occurredAt.GetOr(""), IsPhpSpace))
    ensures r.result == Err(ServerError) <==>
      && b == Node && !AmountRejected(b, body.amount) && !CategoryIdRejected(b, body.categoryId)
      && !OccurredAtRejected(b, body.occurredAt)
      && (body.amount.NotNumeric? || !parses(body.occurredAt.value) || FindCategory(st.categories, body.categoryId.n).None?)
    ensures r.result.Err? ==>
      r.store == (if r.result == Err(ServerError) && body.amount.Numeric? && parses(body.occurredAt.value)
                  then st.(nextExpenseId := st.nextExpenseId + 1) else st)
    ensures r.result.Ok? ==>
      && body.amount.Numeric? && body.amount.n > 0 && body.categoryId.Id?
      && r.result.value == st.nextExpenseId
      && r.store.categories == st.categories
      && r.store.expenses == st.expenses + [Expense(r.result.value, Some(body.categoryId.n), body.amount.n,
           Nullable(b, body.note),
           toInstant(if b == Node then body.occurredAt.value else Trim(body.occurredAt.value, IsPhpSpace)))]
  {
    if AmountRejected(b, body.amount) then Reply(st, Err(BadRequest(AmountInvalid)))
    else if CategoryIdRejected(b, body.categoryId) then Reply(st, Err(BadRequest(CategoryRequired)))
    else if OccurredAtRejected(b, body.occurredAt) then Reply(st, Err(BadRequest(OccurredAtRequired)))
    else if body.amount.NotNumeric? || (b == Node && !parses(body.occurredAt.value)) then Reply(st, Err(ServerError))
    else
      var at := if b == Node then body.occurredAt.value else Trim(body.occurredAt.value, IsPhpSpace);
      var w := InsertExpense(st, b == Node, body.categoryId.n, body.amount.n, Nullable(b, body.note), toInstant(at));
      match w.result
      case Err(_) => Reply(w.store, Err(ServerError))
      case Ok(id) => Reply(w.store, Ok(id))
  }

  /** An expense request, answered or refused, keeps the store's
      constraints; on Node it also keeps every category reference
      resolvable. */
  lemma CreateExpenseKeepsValid(b: Backend, st: Store, body: ExpenseBody, parses: string -> bool, toInstant: string -> int)
    requires Valid(st) && ReferencesResolve(st)
    ensures var r := CreateExpense(b, st, body, parses, toInstant);
      Valid(r.store) && (b == Node ==> ReferencesResolve(r.store))
  {
    if !AmountRejected(b, body.amount) && !CategoryIdRejected(b, body.categoryId) && !OccurredAtRejected(b, body.occurredAt)
      && !body.amount.NotNumeric? && !(b == Node && !parses(body.occurredAt.value))
    {
      var at := if b == Node then body.occurredAt.value else Trim(body.occurredAt.value, IsPhpSpace);
      InsertExpenseKeepsValid(st, b == Node, body.categoryId.n, body.amount.n, Nullable(b, body.note), toInstant(at));
    }
  }

  /** The handler a request reaches. */
  datatype Endpoint =
    | HealthCheck | CategoryList | CategoryCreate | ExpenseList | ExpenseCreate
    | DailySummary | CategorySummary | MonthlySummary | NotFound

  /** Dispatch on the request method `verb` and path (the path below `/api/`, without the
      surrounding slashes). Node registers one handler per method and path;
      PHP's `route` answers `health` whatever the method and has no monthly
      summary. Anything else is "Not found". */
  function Route(b: Backend, verb: string, path: string): (r: Endpoint)
    ensures r == HealthCheck <==> path == "health" && (b == Php || verb == "GET")
    ensures r == CategoryList <==> verb == "GET" && path == "categories"
    ensures r == CategoryCreate <==> verb == "POST" && path == "categories"
    ensures r == ExpenseList <==> verb == "GET" && path == "expenses"
    ensures r == ExpenseCreate <==> verb == "POST" && path == "expenses"
    ensures r == DailySummary <==> verb == "GET" && path == "summary/daily"
    ensures r == CategorySummary <==> verb == "GET" && path == "summary/categories"
    ensures r == MonthlySummary <==> b == Node && verb == "GET" && path == "summary/monthly"
    ensures r == NotFound <==>
      && !(path == "health" && (b == Php || verb == "GET"))
      && !((verb == "GET" || verb == "POST") && (path == "categories" || path == "expenses"))
      && !(verb == "GET" && (path == "summary/daily" || path == "summary/categories"))
      && !(b == Node && verb == "GET" && path == "summary/monthly")
  {
    match b
    case Node =>
      if verb == "GET" then
        if path == "health" then HealthCheck
        else if path == "categories" then CategoryList
        else if path == "expenses" then ExpenseList
        else if path == "summary/daily" then DailySummary
        else if path == "summary/categories" then CategorySummary
        else if path == "summary/monthly" then MonthlySummary
        else NotFound
      else if verb == "POST" then
        if path == "categories" then CategoryCreate
        else if path == "expenses" then ExpenseCreate
        else NotFound
      else NotFound
    case Php =>
      if path == "health" then HealthCheck
      else if path == "categories" then
        (if verb == "GET" then CategoryList else if verb == "POST" then CategoryCreate else NotFound)
      else if path == "expenses" then
        (if verb == "GET" then ExpenseList else if verb == "POST" then ExpenseCreate else NotFound)
      else if path == "summary/daily" then (if verb == "GET" then DailySummary else NotFound)
      else if path == "summary/categories" then (if verb == "GET" then CategorySummary else NotFound)
      else NotFound
  }
}

=== FILE: books.dfy ===
/** The multi-user bookkeeping app (`helpers.php`, `transactions.php`,
    `categories.php`, `dashboard.php`): each user owns categories and
    income/expense transactions, and every read and write is scoped by the
    signed-in user's id. This module holds the records, the session helpers,
    `fetch_categories` and the user-scoped writes, as functions from books
    to books. */
module Books {
  import opened Results
  import opened Text
  import opened Sorting
  import opened Params

  /** The `type` column of categories and transactions. */
  datatype TxType = Income | Expense

  function TypeName(t: TxType): (s: string)
    ensures s == "income" || s == "expense"
  {
    match t
    case Income => "income"
    case Expense => "expense"
  }

  /** `in_array($type, ['income', 'expense'], true)`: only the two exact
      words name a type. */
  function ParseType(s: string): (r: Option<TxType>)
    ensures r.Some? <==> s == "income" || s == "expense"
    ensures forall t :: r == Some(t) <==> s == TypeName(t)
  {
    if s == "income" then Some(Income)
    else if s == "expense" then Some(Expense)
    else None
  }

  datatype UserCategory = UserCategory(id: int, userId: int, name: string, kind: TxType)

  /** A transaction; `date` is a day number (see `Calendar`). `categoryId`
      is whatever the form sent: the app never checks that it names a
      category, or one of the same user. */
  datatype Transaction = Transaction(
    id: int,
    userId: int,
    categoryId: Option<int>,
    date: int,
    kind: TxType,
    amount: int,
    note: string)

  /** The `categories` and `transactions` tables with their id sequences. */
  datatype Books = Books(
    categories: seq<UserCategory>,
    transactions: seq<Transaction>,
    nextCategoryId: int,
    nextTransactionId: int)

  /** No row occurs twice, a key identifies its row, and every key is below
      the next value of the table's sequence. */
  ghost predicate KeysValid<T(!new)>(s: seq<T>, key: T -> int, next: int) {
    && Distinct(s)
    && (forall x, y :: x in s && y in s && key(x) == key(y) ==> x == y)
    && (forall x :: x in s ==> key(x) < next)
  }

  function CategoryKey(c: UserCategory): int {
    c.id
  }

  function TransactionKey(t: Transaction): int {
    t.id
  }

  /** Primary keys identify their rows and stay below their sequence. */
  ghost predicate Valid(bk: Books) {
    && KeysValid(bk.categories, CategoryKey, bk.nextCategoryId)
    && KeysValid(bk.transactions, TransactionKey, bk.nextTransactionId)
  }

  /** Where a handler sends the browser, with the flash message and its level. */
  datatype Redirect = Redirect(url: string, message: string, level: string)

  /** The edit lookup of a page: no `edit` parameter, the row to edit, or
      the redirect back with "not found". */
  datatype Edit<T> = NotEditing | Editing(row: T) | EditMissing(redirect: Redirect)

  /** The session's signed-in user, as the login page stores it. */
  datatype SessionUser = SessionUser(id: Option<int>)

  datatype Session = Session(user: Option<SessionUser>)

  /** `current_user_id()`: the session user's id, or null without a user. */
  function CurrentUserId(s: Session): (r: Option<int>)
    ensures s.user.None? ==> r.None?
    ensures r.Some? ==> s.user.Some? && s.user.value.id == r
  {
    match s.user
    case None => None
    case Some(u) => u.id
  }

  const SessionExpired := Redirect("logout.php", "Sesi berakhir, silakan login kembali.", "danger")

  /** `require_user_id()`: the user id when it is truthy; otherwise the
      request ends with a redirect to the logout page. */
  function RequireUserId(s: Session): (r: Result<int, Redirect>)
    ensures r.Ok? ==> CurrentUserId(s) == Some(r.value) && r.value != 0
    ensures r.Err? <==> CurrentUserId(s).None? || CurrentUserId(s) == Some(0)
    ensures r.Err? ==> r.error == SessionExpired
  {
    var id := CurrentUserId(s);
    if id.None? || id.value == 0 then Err(SessionExpired) else Ok(id.value)
  }

  /** The elements of `s` satisfying `p`, in order. */
  function Filter<T(!new)>(s: seq<T>, p: T -> bool): (r: seq<T>)
    ensures forall x :: x in r <==> x in s && p(x)
    ensures |r| <= |s|
    ensures Distinct(s) ==> Distinct(r)
  {
    if |s| == 0 then []
    else
      var rest := Filter(s[1..], p);
      assert Distinct(s) ==> s[0] !in s[1..] && Distinct(s[1..]);
      if p(s[0]) then [s[0]] + rest else rest
  }

  /** Filtering by a condition that is implied by the second filter's is redundant. */
  lemma {:induction false} FilterImplied<T(!new)>(s: seq<T>, p: T -> bool, q: T -> bool)
    requires forall x :: q(x) ==> p(x)
    ensures Filter(Filter(s, p), q) == Filter(s, q)
  {
    if |s| > 0 {
      FilterImplied(s[1..], p, q);
      if p(s[0]) {
        assert Filter(s, p) == [s[0]] + Filter(s[1..], p);
        assert Filter(s, p)[1..] == Filter(s[1..], p);
      }
    }
  }

  /** An appended element the filter rejects changes nothing. */
  lemma {:induction false} FilterAppendRejected<T(!new)>(s: seq<T>, x: T, p: T -> bool)
    requires !p(x)
    ensures Filter(s + [x], p) == Filter(s, p)
  {
    if |s| > 0 {
      assert (s + [x])[1..] == s[1..] + [x];
      FilterAppendRejected(s[1..], x, p);
    }
  }

  /** `UPDATE … WHERE <p>`: every row satisfying `p` rewritten by `f`. */
  function MapWhere<T>(s: seq<T>, p: T -> bool, f: T -> T): (r: seq<T>)
    ensures |r| == |s|
    ensures forall i :: 0 <= i < |s| ==> r[i] == if p(s[i]) then f(s[i]) else s[i]
  {
    if |s| == 0 then []
    else [if p(s[0]) then f(s[0]) else s[0]] + MapWhere(s[1..], p, f)
  }

  /** A filter that neither the updated rows nor their new values pass does
      not see the update. */
  lemma {:induction false} FilterMapUnseen<T(!new)>(s: seq<T>, p: T -> bool, f: T -> T, q: T -> bool)
    requires forall x :: p(x) ==> !q(x) && !q(f(x))
    ensures Filter(MapWhere(s, p, f), q) == Filter(s, q)
  {
    if |s| > 0 {
      FilterMapUnseen(s[1..], p, f, q);
      assert MapWhere(s, p, f)[1..] == MapWhere(s[1..], p, f);
    }
  }

  /** Filters that agree on every element agree. */
  lemma {:induction false} FilterSame<T(!new)>(s: seq<T>, p: T -> bool, q: T -> bool)
    requires forall x :: p(x) == q(x)
    ensures Filter(s, p) == Filter(s, q)
  {
    if |s| > 0 {
      FilterSame(s[1..], p, q);
    }
  }

  /** The first element satisfying `p`: a single-row `SELECT … WHERE <p>`. */
  function FindFirst<T(!new)>(s: seq<T>, p: T -> bool): (r: Option<T>)
    ensures r.Some? ==> r.value in s && p(r.value)
    ensures r.None? <==> forall x :: x in s ==> !p(x)
  {
    if |s| == 0 then None
    else if p(s[0]) then Some(s[0])
    else FindFirst(s[1..], p)
  }

  /** The rows of one user: what every query's `user_id = :user_id` keeps. */
  function OwnedTransactions(ts: seq<Transaction>, uid: int): seq<Transaction> {
    Filter(ts, (t: Transaction) => t.userId == uid)
  }

  function OwnedCategories(cs: seq<UserCategory>, uid: int): seq<UserCategory> {
    Filter(cs, (c: UserCategory) => c.userId == uid)
  }

  /** A listed transaction with the name of the category its id points at. */
  datatype TxRow = TxRow(tx: Transaction, categoryName: Option<string>)

  /** `LEFT JOIN categories c ON t.category_id = c.id`: the join does not
      look at the category's owner. */
  function JoinRow(bk: Books, t: Transaction): TxRow {
    var c := if t.categoryId.Some? then FindFirst(bk.categories, (c: UserCategory) => c.id == t.categoryId.value) else None;
    TxRow(t, if c.Some? then Some(c.value.name) else None)
  }

  /** `ORDER BY t.date DESC, t.id DESC`: `a` may be listed before `b`. */
  predicate NewerFirst(a: TxRow, b: TxRow) {
    a.tx.date > b.tx.date || (a.tx.date == b.tx.date && a.tx.id >= b.tx.id)
  }

  lemma NewerFirstIsPreorder()
    ensures TotalPreorder(NewerFirst)
  {
  }

  /** `ORDER BY name ASC`: `a` may be listed before `b`. */
  predicate NameLe(a: UserCategory, b: UserCategory) {
    StrLe(a.name, b.name)
  }


  /** `fetch_categories($type)`: the current user's categories (none when
      there is no user), restricted to `type` when it is truthy, by name
      ascending. */
  function FetchCategories(bk: Books, uid: Option<int>, kind: Option<string>): (r: seq<UserCategory>)
    ensures forall c :: c in r <==>
      && c in bk.categories
      && uid == Some(c.userId)
      && (!TextTruthy(kind) || TypeName(c.kind) == kind.value)
    ensures SortedBy(r, NameLe)
    ensures Distinct(bk.categories) ==> Distinct(r)
  {
    var picked := Filter(bk.categories, (c: UserCategory) =>
      uid == Some(c.userId) && (!TextTruthy(kind) || TypeName(c.kind) == kind.value));
    KeyOrderIsPreorder(NameLe, (c: UserCategory) => c.name);
    var r := SortBy(picked, NameLe);
    SortedSameElements(picked, r);
    r
  }

  /** A rearrangement has the same elements, and no duplicates if the original had none. */
  lemma SortedSameElements<T(!new)>(s: seq<T>, r: seq<T>)
    requires multiset(r) == multiset(s)
    ensures forall x :: x in r <==> x in s
    ensures Distinct(s) ==> Distinct(r)
  {
    forall x ensures x in r <==> x in s {
      assert x in r <==> x in multiset(r);
      assert x in s <==> x in multiset(s);
    }
    if Distinct(s) {
      DistinctPermutation(s, r);
    }
  }

  /** The income list followed by the expense list (the transaction page's
      `array_merge`) holds exactly the user's categories. */
  lemma MergedCategoriesAreAll(bk: Books, uid: Option<int>)
    ensures forall c ::
      c in FetchCategories(bk, uid, Some("income")) + FetchCategories(bk, uid, Some("expense")) <==>
      c in FetchCategories(bk, uid, None)
  {
    forall c ensures
      c in FetchCategories(bk, uid, Some("income")) + FetchCategories(bk, uid, Some("expense")) <==>
      c in FetchCategories(bk, uid, None)
    {
      assert TypeName(c.kind) == "income" || TypeName(c.kind) == "expense";
    }
  }

  /** A submitted category name and type as both category forms check them:
      refused when the trimmed name is empty or the type is not one of the
      two; otherwise the trimmed name and the type. */
  function CategoryInput(name: Option<string>, kind: Option<string>): (r: Option<(string, TxType)>)
    ensures r.None? <==> AllSpace(name.GetOr(""), IsPhpSpace) || ParseType(kind.GetOr("")).None?
    ensures r.Some? ==>
      r.value.0 == Trim(name.value, IsPhpSpace) && r.value.0 != "" && Some(TypeName(r.value.1)) == kind
  {
    var n := Trim(name.GetOr(""), IsPhpSpace);
    var k := ParseType(kind.GetOr(""));
    assert k.Some? ==> kind.Some? by {
      assert "" != "income" && "" != "expense";
    }
    if n == "" || k.None? then None else Some((n, k.value))
  }

  /** `INSERT INTO categories (user_id, name, type)`: a new row owned by `uid`. */
  function AddCategory(bk: Books, uid: int, name: string, kind: TxType): (r: (Books, UserCategory))
    ensures r.1.userId == uid && r.1.name == name && r.1.kind == kind
    ensures r.0.categories == bk.categories + [r.1]
    ensures r.0.transactions == bk.transactions
  {
    var c := UserCategory(bk.nextCategoryId, uid, name, kind);
    (bk.(categories := bk.categories + [c], nextCategoryId := bk.nextCategoryId + 1), c)
  }

  /** `UPDATE categories SET name, type WHERE id = :id AND user_id = :user_id`. */
  function UpdateCategory(bk: Books, uid: int, id: int, name: string, kind: TxType): (r: Books)
    ensures |r.categories| == |bk.categories|
    ensures forall i :: 0 <= i < |bk.categories| ==>
      var (c, c') := (bk.categories[i], r.categories[i]);
      if c.id == id && c.userId == uid then c' == c.(name := name, kind := kind) else c' == c
    ensures r.transactions == bk.transactions
  {
    bk.(categories := MapWhere(bk.categories, (c: UserCategory) => c.id == id && c.userId == uid,
                               (c: UserCategory) => c.(name := name, kind := kind)))
  }

  /** `DELETE FROM categories WHERE id = :id AND user_id = :user_id`. */
  function DeleteCategory(bk: Books, uid: int, id: IdParam): (r: Books)
    ensures forall c :: c in r.categories <==> c in bk.categories && !(id == Id(c.id) && c.userId == uid)
    ensures r.transactions == bk.transactions
  {
    bk.(categories := Filter(bk.categories, (c: UserCategory) => !(id == Id(c.id) && c.userId == uid)))
  }

  /** The checked values a transaction form writes. */
  datatype TxFields = TxFields(categoryId: int, date: int, kind: TxType, amount: int, note: string)

  /** A transaction rewritten with the form's values; id and owner stay. */
  function Rewrite(t: Transaction, f: TxFields): Transaction {
    t.(categoryId := Some(f.categoryId), date := f.date, kind := f.kind, amount := f.amount, note := f.note)
  }

  /** `INSERT INTO transactions (user_id, …)`: a new row owned by `uid`. */
  function AddTransaction(bk: Books, uid: int, f: TxFields): (r: (Books, Transaction))
    ensures r.1.userId == uid && r.1 == Rewrite(r.1, f)
    ensures r.0.transactions == bk.transactions + [r.1]
    ensures r.0.categories == bk.categories
  {
    var t := Transaction(bk.nextTransactionId, uid, Some(f.categoryId), f.date, f.kind, f.amount, f.note);
    (bk.(transactions := bk.transactions + [t], nextTransactionId := bk.nextTransactionId + 1), t)
  }

  /** `UPDATE transactions SET … WHERE id = :id AND user_id = :user_id`. */
  function UpdateTransaction(bk: Books, uid: int, id: int, f: TxFields): (r: Books)
    ensures |r.transactions| == |bk.transactions|
    ensures forall i :: 0 <= i < |bk.transactions| ==>
      var (t, t') := (bk.transactions[i], r.transactions[i]);
      if t.id == id && t.userId == uid then t' == Rewrite(t, f) else t' == t
    ensures r.categories == bk.categories
  {
    bk.(transactions := MapWhere(bk.transactions, (t: Transaction) => t.id == id && t.userId == uid,
                                 (t: Transaction) => Rewrite(t, f)))
  }

  /** `DELETE FROM transactions WHERE id = :id AND user_id = :user_id`. */
  function DeleteTransaction(bk: Books, uid: int, id: IdParam): (r: Books)
    ensures forall t :: t in r.transactions <==> t in bk.transactions && !(id == Id(t.id) && t.userId == uid)
    ensures r.categories == bk.categories
  {
    bk.(transactions := Filter(bk.transactions, (t: Transaction) => !(id == Id(t.id) && t.userId == uid)))
  }

  /** `SELECT * FROM transactions WHERE id = :id AND user_id = :user_id`. */
  function FindTransaction(bk: Books, uid: int, id: IdParam): (r: Option<Transaction>)
    ensures r.Some? ==> r.value in bk.transactions && id == Id(r.value.id) && r.value.userId == uid
    ensures r.None? <==> forall t :: t in bk.transactions ==> !(id == Id(t.id) && t.userId == uid)
  {
    FindFirst(bk.transactions, (t: Transaction) => id == Id(t.id) && t.userId == uid)
  }

  /** `SELECT * FROM categories WHERE id = :id AND user_id = :user_id`. */
  function FindCategory(bk: Books, uid: int, id: IdParam): (r: Option<UserCategory>)
    ensures r.Some? ==> r.value in bk.categories && id == Id(r.value.id) && r.value.userId == uid
    ensures r.None? <==> forall c :: c in bk.categories ==> !(id == Id(c.id) && c.userId == uid)
  {
    FindFirst(bk.categories, (c: UserCategory) => id == Id(c.id) && c.userId == uid)
  }

  /** No write by user `uid` changes what any other user sees. */
  lemma OtherUsersUnaffected(bk: Books, uid: int, other: int, id: int, d: IdParam, name: string,
                             kind: TxType, f: TxFields)
    requires other != uid
    ensures OwnedCategories(AddCategory(bk, uid, name, kind).0.categories, other) == OwnedCategories(bk.categories, other)
    ensures OwnedCategories(UpdateCategory(bk, uid, id, name, kind).categories, other) == OwnedCategories(bk.categories, other)
    ensures OwnedCategories(DeleteCategory(bk, uid, d).categories, other) == OwnedCategories(bk.categories, other)
    ensures OwnedTransactions(AddTransaction(bk, uid, f).0.transactions, other) == OwnedTransactions(bk.transactions, other)
    ensures OwnedTransactions(UpdateTransaction(bk, uid, id, f).transactions, other) == OwnedTransactions(bk.transactions, other)
    ensures OwnedTransactions(DeleteTransaction(bk, uid, d).transactions, other) == OwnedTransactions(bk.transactions, other)
  {
    var ownC := (c: UserCategory) => c.userId == other;
    var ownT := (t: Transaction) => t.userId == other;
    FilterAppendRejected(bk.categories, AddCategory(bk, uid, name, kind).1, ownC);
    FilterMapUnseen(bk.categories, (c: UserCategory) => c.id == id && c.userId == uid,
                    (c: UserCategory) => c.(name := name, kind := kind), ownC);
    FilterImplied(bk.categories, (c: UserCategory) => !(d == Id(c.id) && c.userId == uid), ownC);
    FilterAppendRejected(bk.transactions, AddTransaction(bk, uid, f).1, ownT);
    FilterMapUnseen(bk.transactions, (t: Transaction) => t.id == id && t.userId == uid,
                    (t: Transaction) => Rewrite(t, f), ownT);
    FilterImplied(bk.transactions, (t: Transaction) => !(d == Id(t.id) && t.userId == uid), ownT);
  }

  /** Every write keeps the books' key constraints. */
  lemma WritesKeepValid(bk: Books, uid: int, id: int, d: IdParam, name: string, kind: TxType, f: TxFields)
    requires Valid(bk)
    ensures Valid(AddCategory(bk, uid, name, kind).0)
    ensures Valid(UpdateCategory(bk, uid, id, name, kind))
    ensures Valid(DeleteCategory(bk, uid, d))
    ensures Valid(AddTransaction(bk, uid, f).0)
    ensures Valid(UpdateTransaction(bk, uid, id, f))
    ensures Valid(DeleteTransaction(bk, uid, d))
  {
    AppendKeepsKeys(bk.categories, AddCategory(bk, uid, name, kind).1, CategoryKey, bk.nextCategoryId);
    AppendKeepsKeys(bk.transactions, AddTransaction(bk, uid, f).1, TransactionKey, bk.nextTransactionId);
    MapWhereKeepsKeys(bk.categories, (c: UserCategory) => c.id == id && c.userId == uid,
                      (c: UserCategory) => c.(name := name, kind := kind), CategoryKey, bk.nextCategoryId);
    MapWhereKeepsKeys(bk.transactions, (t: Transaction) => t.id == id && t.userId == uid,
                      (t: Transaction) => Rewrite(t, f), TransactionKey, bk.nextTransactionId);
  }

  lemma AppendKeepsKeys<T(!new)>(s: seq<T>, x: T, key: T -> int, next: int)
    requires KeysValid(s, key, next) && key(x) == next
    ensures KeysValid(s + [x], key, next + 1)
  {
    assert x !in s;
  }

  lemma MapWhereKeepsKeys<T(!new)>(s: seq<T>, p: T -> bool, f: T -> T, key: T -> int, next: int)
    requires KeysValid(s, key, next)
    requires forall x :: key(f(x)) == key(x)
    ensures KeysValid(MapWhere(s, p, f), key, next)
  {
    var r := MapWhere(s, p, f);
    forall x | x in r ensures exists i :: 0 <= i < |s| && r[i] == x && key(x) == key(s[i]) {
      var i :| 0 <= i < |r| && r[i] == x;
    }
    forall i, j | 0 <= i < j < |r| ensures r[i] != r[j] {
      assert s[i] in s && s[j] in s && s[i] != s[j];
    }
    forall x, y | x in r && y in r && key(x) == key(y) ensures x == y {
      var i :| 0 <= i < |s| && r[i] == x && key(x) == key(s[i]);
      var j :| 0 <= j < |s| && r[j] == y && key(y) == key(s[j]);
      assert s[i] in s && s[j] in s;
    }
    forall x | x in r ensures key(x) < next {
      var i :| 0 <= i < |s| && r[i] == x && key(x) == key(s[i]);
      assert s[i] in s;
    }
  }

  /** After an insert, the edit lookup by the new id finds the new row. */
  lemma AddedTransactionFound(bk: Books, uid: int, f: TxFields)
    requires Valid(bk)
    ensures var (bk', t) := AddTransaction(bk, uid, f);
      FindTransaction(bk', uid, Id(t.id)) == Some(t)
  {
    var (bk', t) := AddTransaction(bk, uid, f);
    AppendKeepsKeys(bk.transactions, t, TransactionKey, bk.nextTransactionId);
    assert t in bk'.transactions;
  }
}

=== FILE: calendar.dfy ===
/** Time as the reports see it. An instant is a count of milliseconds since
    1970-01-01T00:00:00 UTC; a day is a count of calendar days since
    1970-01-01. Every truncation to a day (`date_trunc('day', …)`, `date(…)`,
    `startOf('day')`) is taken in UTC. Months follow the proleptic Gregorian
    calendar. */
module Calendar {

  const MillisPerDay: int := 86_400_000

  /** The calendar day holding instant `t` (floor division). */
  function DayOf(t: int): int {
    t / MillisPerDay
  }

  /** The first instant of day `d`. */
  function StartOfDay(d: int): int {
    d * MillisPerDay
  }

  /** An instant lies between the start of its day and the start of the next. */
  lemma DayOfBounds(t: int)
    ensures StartOfDay(DayOf(t)) <= t < StartOfDay(DayOf(t) + 1)
  {
  }

  /** Comparing an instant with the start of a day is comparing days. */
  lemma AtOrAfterStartOfDay(d: int, t: int)
    ensures StartOfDay(d) <= t <==> d <= DayOf(t)
  {
    DayOfBounds(t);
  }

  /** Comparing an instant with the last instant of a day is comparing days. */
  lemma AtOrBeforeEndOfDay(d: int, t: int)
    ensures t <= StartOfDay(d + 1) - 1 <==> DayOf(t) <= d
  {
    DayOfBounds(t);
  }

  /** The day is determined by the bounds of the previous lemma. */
  lemma DayOfUnique(d: int, t: int)
    requires StartOfDay(d) <= t < StartOfDay(d + 1)
    ensures DayOf(t) == d
  {
    DayOfBounds(t);
  }

  /** Going back `k` whole days from an instant goes back `k` calendar days. */
  lemma DayOfShift(t: int, k: int)
    ensures DayOf(t - k * MillisPerDay) == DayOf(t) - k
  {
    DayOfBounds(t);
    DayOfUnique(DayOf(t) - k, t - k * MillisPerDay);
  }

  type Month = m: int | 1 <= m <= 12 witness 1

  /** A `YYYY-MM` month. */
  datatype YearMonth = YearMonth(year: int, month: Month)

  /** The Gregorian rule: every fourth year, except centuries not divisible by 400. */
  predicate IsLeapYear(y: int) {
    y % 4 == 0 && (y % 100 != 0 || y % 400 == 0)
  }

  function DaysInYear(y: int): int {
    if IsLeapYear(y) then 366 else 365
  }

  /** Luxon's `daysInMonth`. */
  function DaysInMonth(y: int, m: Month): (n: int)
    ensures 28 <= n <= 31
    ensures n < 30 <==> m == 2
    ensures m == 2 ==> (n == 29 <==> IsLeapYear(y))
  {
    if m == 2 then (if IsLeapYear(y) then 29 else 28)
    else if m == 4 || m == 6 || m == 9 || m == 11 then 30
    else 31
  }

  /** Days of year `y` before the first of month `m`. */
  function DaysBeforeMonth(y: int, m: Month): int {
    [0, 31, 59, 90, 120, 151, 181, 212, 243, 273, 304, 334][m - 1]
      + (if m > 2 && IsLeapYear(y) then 1 else 0)
  }

  /** The months of a year follow one another without gap or overlap and
      together make up the year. */
  lemma MonthsFillYear(y: int, m: Month)
    ensures m < 12 ==> DaysBeforeMonth(y, m + 1) == DaysBeforeMonth(y, m) + DaysInMonth(y, m)
    ensures m == 12 ==> DaysBeforeMonth(y, m) + DaysInMonth(y, m) == DaysInYear(y)
  {
  }

  /** Days from 1970-01-01 to the first of January of year `y` (negative before 1970). */
  function DaysBeforeYear(y: int): int
    decreases if y < 1970 then 1970 - y else y - 1970
  {
    if y == 1970 then 0
    else if y > 1970 then DaysBeforeYear(y - 1) + DaysInYear(y - 1)
    else DaysBeforeYear(y + 1) - DaysInYear(y)
  }

  /** Consecutive years are adjacent on the day line. */
  lemma YearsAdjacent(y: int)
    ensures DaysBeforeYear(y + 1) == DaysBeforeYear(y) + DaysInYear(y)
  {
  }

  /** Later years start later. */
  lemma {:induction false} YearsIncrease(a: int, b: int)
    requires a < b
    ensures DaysBeforeYear(a) + DaysInYear(a) <= DaysBeforeYear(b)
    decreases b - a
  {
    YearsAdjacent(a);
    if a + 1 < b {
      YearsIncrease(a + 1, b);
    }
  }

  /** The day number of the first of the month. */
  function FirstDay(ym: YearMonth): int {
    DaysBeforeYear(ym.year) + DaysBeforeMonth(ym.year, ym.month)
  }

  /** The day number of the last day of the month. */
  function LastDay(ym: YearMonth): int {
    FirstDay(ym) + DaysInMonth(ym.year, ym.month) - 1
  }

  function NextMonth(ym: YearMonth): YearMonth {
    if ym.month == 12 then YearMonth(ym.year + 1, 1) else YearMonth(ym.year, ym.month + 1)
  }

  /** Months tile the day line: each month starts the day after the previous one ends. */
  lemma MonthsTile(ym: YearMonth)
    ensures FirstDay(NextMonth(ym)) == LastDay(ym) + 1
  {
    MonthsFillYear(ym.year, ym.month);
    YearsAdjacent(ym.year);
  }

  /** `YearMonth` ordered by year, then month. */
  predicate MonthBefore(a: YearMonth, b: YearMonth) {
    a.year < b.year || (a.year == b.year && a.month < b.month)
  }

  /** A month ends before any later month begins. */
  lemma MonthsOrdered(a: YearMonth, b: YearMonth)
    requires MonthBefore(a, b)
    ensures LastDay(a) < FirstDay(b)
  {
    MonthsFillYear(a.year, a.month);
    if a.year < b.year {
      MonthWithinYear(a);
      YearsIncrease(a.year, b.year);
    } else {
      MonthStartsIncrease(a.year, a.month + 1, b.month);
    }
  }

  lemma MonthWithinYear(ym: YearMonth)
    ensures LastDay(ym) < DaysBeforeYear(ym.year) + DaysInYear(ym.year)
  {
  }

  lemma MonthStartsIncrease(y: int, m: Month, n: Month)
    requires m <= n
    ensures DaysBeforeMonth(y, m) <= DaysBeforeMonth(y, n)
  {
  }

  /** The year whose days include `d`, searched upward from year `y`. */
  function FindYearUp(y: int, d: int): (r: int)
    requires DaysBeforeYear(y) <= d
    ensures DaysBeforeYear(r) <= d < DaysBeforeYear(r) + DaysInYear(r)
    decreases d - DaysBeforeYear(y)
  {
    YearsAdjacent(y);
    if d < DaysBeforeYear(y) + DaysInYear(y) then y else FindYearUp(y + 1, d)
  }

  /** The year whose days include `d`, searched downward from year `y`. */
  function FindYearDown(y: int, d: int): (r: int)
    requires d < DaysBeforeYear(y)
    ensures DaysBeforeYear(r) <= d < DaysBeforeYear(r) + DaysInYear(r)
    decreases DaysBeforeYear(y) - d
  {
    YearsAdjacent(y - 1);
    if DaysBeforeYear(y - 1) <= d then y - 1 else FindYearDown(y - 1, d)
  }

  /** The month of year `y` holding the `o`-th day of the year, searched from month `m` down. */
  function FindMonth(y: int, o: int, m: Month): (r: Month)
    requires 0 <= o < DaysBeforeMonth(y, m) + DaysInMonth(y, m)
    ensures DaysBeforeMonth(y, r) <= o < DaysBeforeMonth(y, r) + DaysInMonth(y, r)
    decreases m
  {
    if DaysBeforeMonth(y, m) <= o then m
    else
      MonthsFillYear(y, m - 1);
      FindMonth(y, o, m - 1)
  }

  /** The month holding day `d`: what `startOf('month')` picks for the current day. */
  function MonthOfDay(d: int): (ym: YearMonth)
    ensures FirstDay(ym) <= d <= LastDay(ym)
  {
    var y := if 0 <= d then FindYearUp(1970, d) else FindYearDown(1970, d);
    MonthsFillYear(y, 12);
    var m := FindMonth(y, d - DaysBeforeYear(y), 12);
    YearMonth(y, m)
  }

  /** Each day lies in exactly one month, so `MonthOfDay` is the only answer. */
  lemma MonthOfDayUnique(d: int, ym: YearMonth)
    requires FirstDay(ym) <= d <= LastDay(ym)
    ensures MonthOfDay(d) == ym
  {
    var other := MonthOfDay(d);
    if MonthBefore(other, ym) {
      MonthsOrdered(other, ym);
    } else if MonthBefore(ym, other) {
      MonthsOrdered(ym, other);
    }
  }

  /** The first instant of the month. */
  function MonthStart(ym: YearMonth): int {
    StartOfDay(FirstDay(ym))
  }

  /** The last instant of the month: luxon's `endOf('month')`, one
      millisecond before the next month starts. */
  function MonthEnd(ym: YearMonth): int {
    StartOfDay(LastDay(ym) + 1) - 1
  }

  /** An instant lies in the inclusive window [MonthStart, MonthEnd] exactly
      when its day lies in the month. */
  lemma MonthWindowDays(ym: YearMonth, t: int)
    ensures MonthStart(ym) <= t <= MonthEnd(ym) <==> FirstDay(ym) <= DayOf(t) <= LastDay(ym)
  {
    AtOrAfterStartOfDay(FirstDay(ym), t);
    AtOrBeforeEndOfDay(LastDay(ym), t);
  }
}

=== FILE: categories_page.dfy ===
/** `categories.php`: delete, the add/edit form and the edit lookup, all
    scoped to the signed-in user. */
module CategoriesPage {
  import opened Results
  import opened Text
  import opened Params
  import opened Books

  const CategoryDeleted := "Kategori dihapus."
  const NameRequired := "Nama kategori wajib diisi."
  const TypeInvalid := "Tipe kategori harus income atau expense."
  const CategoryUpdated := "Kategori diperbarui."
  const CategoryAdded := "Kategori ditambahkan."
  const CategoryNotFound := "Kategori tidak ditemukan."

  /** The form's fields: `name`, `type` and the hidden `id` of the row
      being edited. */
  datatype CategoryForm = CategoryForm(name: Option<string>, kind: Option<string>, id: IdParam)

  /** A request to the page: its verb, the `delete_id` field and the form. */
  datatype CategoryRequest = CategoryRequest(isPost: bool, deleteId: IdParam, form: CategoryForm)

  /** A redirect after a write, or the page shown with the errors collected
      and the books as they were. */
  datatype Outcome = Redirected(books: Books, to: Redirect) | Shown(books: Books, errors: seq<string>)

  /** The form's two checks; both run, so both messages can appear. */
  function ValidateCategory(f: CategoryForm): (errs: seq<string>)
    ensures NameRequired in errs <==> AllSpace(f.name.GetOr(""), IsPhpSpace)
    ensures TypeInvalid in errs <==> !(f.kind == Some("income") || f.kind == Some("expense"))
    ensures forall m :: m in errs ==> m == NameRequired || m == TypeInvalid
    ensures |errs| == 2 ==> errs == [NameRequired, TypeInvalid]
    ensures forall i, j :: 0 <= i < j < |errs| ==> errs[i] == NameRequired && errs[j] == TypeInvalid
    ensures errs == [] <==> CategoryInput(f.name, f.kind).Some?
  {
    var nameBad := AllSpace(f.name.GetOr(""), IsPhpSpace);
    var typeBad := !(f.kind == Some("income") || f.kind == Some("expense"));
    assert typeBad <==> ParseType(f.kind.GetOr("")).None? by {
      assert "" != "income" && "" != "expense";
    }
    assert NameRequired != TypeInvalid by { assert NameRequired[0] != TypeInvalid[0]; }
    if nameBad && typeBad then [NameRequired, TypeInvalid]
    else if nameBad then [NameRequired]
    else if typeBad then [TypeInvalid]
    else []
  }

  /** The page's POST handling: `delete_id` wins and redirects at once;
      otherwise a valid form updates the user's row when `id` is truthy and
      inserts a new one when not; an invalid form is shown with its errors. */
  function HandleCategories(bk: Books, uid: int, req: CategoryRequest): (r: Outcome)
    ensures r.Shown? ==> r.books == bk
    ensures r.Shown? <==> !req.isPost || (req.deleteId.Missing? && ValidateCategory(req.form) != [])
    ensures r.Shown? && req.isPost ==> r.errors == ValidateCategory(req.form)
    ensures r.Shown? && !req.isPost ==> r.errors == []
    ensures req.isPost && !req.deleteId.Missing? ==>
      r == Redirected(DeleteCategory(bk, uid, req.deleteId), Redirect("categories.php", CategoryDeleted, "info"))
    ensures r.Redirected? && r.to.message == CategoryUpdated ==>
      && req.deleteId.Missing? && IdTruthy(req.form.id)
      && CategoryInput(req.form.name, req.form.kind).Some?
      && var (name, kind) := CategoryInput(req.form.name, req.form.kind).value;
         r.books == UpdateCategory(bk, uid, req.form.id.n, name, kind)
    ensures r.Redirected? && r.to.message == CategoryAdded ==>
      && req.deleteId.Missing? && !IdTruthy(req.form.id)
      && CategoryInput(req.form.name, req.form.kind).Some?
      && var (name, kind) := CategoryInput(req.form.name, req.form.kind).value;
         r.books == AddCategory(bk, uid, name, kind).0
    ensures r.Redirected? ==> r.to.url == "categories.php"
    ensures r.Redirected? ==> r.to.message in {CategoryDeleted, CategoryUpdated, CategoryAdded}
    ensures req.isPost && req.deleteId.Missing? && ValidateCategory(req.form) == [] ==>
      r.Redirected? && r.to.message == (if IdTruthy(req.form.id) then CategoryUpdated else CategoryAdded)
  {
    if !req.isPost then Shown(bk, [])
    else if !req.deleteId.Missing? then
      Redirected(DeleteCategory(bk, uid, req.deleteId), Redirect("categories.php", CategoryDeleted, "info"))
    else
      var errs := ValidateCategory(req.form);
      if errs != [] then Shown(bk, errs)
      else
        var (name, kind) := CategoryInput(req.form.name, req.form.kind).value;
        if IdTruthy(req.form.id) then
          Redirected(UpdateCategory(bk, uid, req.form.id.n, name, kind), Redirect("categories.php", CategoryUpdated, "success"))
        else
          Redirected(AddCategory(bk, uid, name, kind).0, Redirect("categories.php", CategoryAdded, "success"))
  }

  /** `?edit=`: only a truthy id looks the row up; one the user does not own
      (or that does not exist) redirects with "not found". */
  function EditCategory(bk: Books, uid: int, edit: IdParam): (r: Edit<UserCategory>)
    ensures r.NotEditing? <==> !IdTruthy(edit)
    ensures r.Editing? ==> r.row in bk.categories && r.row.userId == uid && edit == Id(r.row.id)
    ensures r.EditMissing? <==>
      IdTruthy(edit) && forall c :: c in bk.categories ==> !(edit == Id(c.id) && c.userId == uid)
    ensures r.EditMissing? ==> r.redirect == Redirect("categories.php", CategoryNotFound, "danger")
  {
    if !IdTruthy(edit) then NotEditing
    else match FindCategory(bk, uid, edit)
      case Some(c) => Editing(c)
      case None => EditMissing(Redirect("categories.php", CategoryNotFound, "danger"))
  }

  /** A category the user adds shows up in their listing of its type, and in
      nobody else's. */
  lemma AddedCategoryListed(bk: Books, uid: int, other: int, f: CategoryForm)
    requires CategoryInput(f.name, f.kind).Some?
    requires other != uid
    ensures var (name, kind) := CategoryInput(f.name, f.kind).value;
      var r := HandleCategories(bk, uid, CategoryRequest(true, Missing, f.(id := Missing)));
      && r.Redirected?
      && (exists c :: c in FetchCategories(r.books, Some(uid), Some(TypeName(kind))) && c.name == name && c.kind == kind)
      && forall c :: c in FetchCategories(r.books, Some(other), None) <==> c in FetchCategories(bk, Some(other), None)
  {
    var (name, kind) := CategoryInput(f.name, f.kind).value;
    var f' := f.(id := Missing);
    assert CategoryInput(f'.name, f'.kind) == CategoryInput(f.name, f.kind);
    assert ValidateCategory(f') == [];
    assert !IdTruthy(f'.id);
    AddCategoryListing(bk, uid, other, name, kind);
  }

  lemma AddCategoryListing(bk: Books, uid: int, other: int, name: string, kind: TxType)
    requires other != uid
    ensures var bk' := AddCategory(bk, uid, name, kind).0;
      && (exists c :: c in FetchCategories(bk', Some(uid), Some(TypeName(kind))) && c.name == name && c.kind == kind)
      && forall c :: c in FetchCategories(bk', Some(other), None) <==> c in FetchCategories(bk, Some(other), None)
  {
    var (bk', c) := AddCategory(bk, uid, name, kind);
    assert c in bk'.categories;
    assert c in FetchCategories(bk', Some(uid), Some(TypeName(kind)));
    forall x ensures x in FetchCategories(bk', Some(other), None) <==> x in FetchCategories(bk, Some(other), None) {
      assert x in bk'.categories <==> x in bk.categories || x == c;
    }
  }
}

=== FILE: dashboard.dfy ===
/** `dashboard.php`: for the current month, the income and expense totals
    and their balance, the expense breakdown by category name and the daily
    trend; and the five most recent transactions of all time. Every query
    keeps the rows of `current_user_id()`, which may be null and then keeps
    none. Transaction dates are day numbers (see `Calendar`); `today` is the
    day `date()` reads from the clock. */
module Dashboard {
  import opened Results
  import opened Sorting
  import opened Grouping
  import opened Calendar
  import opened Books

  /** `user_id = :user_id AND date BETWEEN <first of month> AND <last of month>`. */
  predicate InMonth(t: Transaction, uid: Option<int>, ym: YearMonth) {
    uid == Some(t.userId) && FirstDay(ym) <= t.date <= LastDay(ym)
  }

  /** Reference sum: the amounts of the month's transactions of type `k`. */
  function KindSum(ts: seq<Transaction>, uid: Option<int>, ym: YearMonth, k: TxType): int {
    if |ts| == 0 then 0
    else (if InMonth(ts[0], uid, ym) && ts[0].kind == k then ts[0].amount else 0) + KindSum(ts[1..], uid, ym, k)
  }

  /** A sequence of entries led by `head`. */
  lemma EntriesCons<K>(head: seq<(K, int)>, xs: seq<(K, int)>, rest: seq<(K, int)>)
    requires |head| <= 1 && xs == head + rest
    ensures Total(xs) == (if |head| == 1 then head[0].1 else 0) + Total(rest)
    ensures forall k :: k in KeySet(xs) <==> (|head| == 1 && k == head[0].0) || k in KeySet(rest)
  {
    if |head| == 1 {
      assert xs[1..] == rest;
      KeySetTail(xs);
    } else {
      assert xs == rest;
    }
  }

  lemma SumForCons<K>(head: seq<(K, int)>, xs: seq<(K, int)>, rest: seq<(K, int)>, k: K)
    requires |head| <= 1 && xs == head + rest
    ensures SumFor(xs, k) == (if |head| == 1 && head[0].0 == k then head[0].1 else 0) + SumFor(rest, k)
  {
    if |head| == 1 {
      assert xs[1..] == rest;
    } else {
      assert xs == rest;
    }
  }

  /** Keys that no entry carries sum to 0. */
  lemma {:induction false} SumForAbsent<K>(xs: seq<(K, int)>, k: K)
    requires k !in KeySet(xs)
    ensures SumFor(xs, k) == 0
  {
    if |xs| > 0 {
      KeySetTail(xs);
      SumForAbsent(xs[1..], k);
    }
  }

  // ---------------------------------------------------------------------
  // Income, expense and balance

  /** The rows `GROUP BY type` sees: one (type, amount) entry per
      transaction of the month. */
  function TypeEntries(ts: seq<Transaction>, uid: Option<int>, ym: YearMonth): seq<(TxType, int)> {
    if |ts| == 0 then []
    else (if InMonth(ts[0], uid, ym) then [(ts[0].kind, ts[0].amount)] else []) + TypeEntries(ts[1..], uid, ym)
  }

  lemma {:induction false} TypeEntriesSum(ts: seq<Transaction>, uid: Option<int>, ym: YearMonth, k: TxType)
    ensures SumFor(TypeEntries(ts, uid, ym), k) == KindSum(ts, uid, ym, k)
  {
    if |ts| > 0 {
      TypeEntriesSum(ts[1..], uid, ym, k);
      var head := if InMonth(ts[0], uid, ym) then [(ts[0].kind, ts[0].amount)] else [];
      SumForCons(head, TypeEntries(ts, uid, ym), TypeEntries(ts[1..], uid, ym), k);
    }
  }

  /** The page's `foreach` over the grouped rows: an income row sets the
      income, an expense row the expense, a later row overwriting an
      earlier one; a type without a row stays 0. */
  function FoldTypeTotals(rows: seq<Bucket<TxType>>): (r: (int, int)) {
    if |rows| == 0 then (0, 0)
    else
      var (income, expense) := FoldTypeTotals(rows[..|rows| - 1]);
      var row := rows[|rows| - 1];
      if row.key == Income then (row.total, expense) else (income, row.total)
  }

  /** The income (for `Income`) or expense (for `Expense`) the fold yields. */
  function Folded(r: (int, int), k: TxType): int {
    if k == Income then r.0 else r.1
  }

  /** With one row per type, the fold picks up each type's row, or 0. */
  lemma {:induction false} FoldPicksRow(rows: seq<Bucket<TxType>>, k: TxType)
    requires forall i, j :: 0 <= i < j < |rows| ==> rows[i].key != rows[j].key
    ensures forall i :: 0 <= i < |rows| && rows[i].key == k ==> Folded(FoldTypeTotals(rows), k) == rows[i].total
    ensures k !in BucketKeys(rows) ==> Folded(FoldTypeTotals(rows), k) == 0
  {
    if |rows| > 0 {
      var init := rows[..|rows| - 1];
      FoldPicksRow(init, k);
      forall i | 0 <= i < |rows| && rows[i].key == k
        ensures Folded(FoldTypeTotals(rows), k) == rows[i].total
      {
        if i < |rows| - 1 {
          assert init[i] == rows[i];
        }
      }
      if k !in BucketKeys(rows) {
        forall i | 0 <= i < |init| ensures init[i].key != k {
          assert init[i] == rows[i];
        }
        assert rows[|rows| - 1].key != k;
      }
    }
  }

  datatype MonthSummary = MonthSummary(income: int, expense: int, balance: int)

  /** The month's cards: income and expense are the sums of the month's
      transactions of each type, the balance their difference. */
  function Summarise(bk: Books, uid: Option<int>, today: int): (s: MonthSummary)
    ensures s.income == KindSum(bk.transactions, uid, MonthOfDay(today), Income)
    ensures s.expense == KindSum(bk.transactions, uid, MonthOfDay(today), Expense)
    ensures s.balance == s.income - s.expense
  {
    var ym := MonthOfDay(today);
    var xs := TypeEntries(bk.transactions, uid, ym);
    var rows := ByTotalDesc(xs);
    var r := FoldTypeTotals(rows);
    SummaryFacts(xs, rows, bk.transactions, uid, ym, Income);
    SummaryFacts(xs, rows, bk.transactions, uid, ym, Expense);
    MonthSummary(r.0, r.1, r.0 - r.1)
  }

  lemma SummaryFacts(xs: seq<(TxType, int)>, rows: seq<Bucket<TxType>>, ts: seq<Transaction>,
                     uid: Option<int>, ym: YearMonth, k: TxType)
    requires xs == TypeEntries(ts, uid, ym) && rows == ByTotalDesc(xs)
    ensures Folded(FoldTypeTotals(rows), k) == KindSum(ts, uid, ym, k)
  {
    FoldPicksRow(rows, k);
    TypeEntriesSum(ts, uid, ym, k);
    if k in BucketKeys(rows) {
      var i :| 0 <= i < |rows| && rows[i].key == k;
    } else {
      SumForAbsent(xs, k);
    }
  }

  // ---------------------------------------------------------------------
  // Expense breakdown by category name

  /** The category name the transaction joins to; the join ignores the
      category's owner. */
  function JoinedName(bk: Books, t: Transaction): Option<string> {
    JoinRow(bk, t).categoryName
  }

  /** A month expense that the inner join keeps. */
  predicate InBreakdown(bk: Books, t: Transaction, uid: Option<int>, ym: YearMonth) {
    InMonth(t, uid, ym) && t.kind == Expense && JoinedName(bk, t).Some?
  }

  /** Reference sum: the month's expenses the join drops (no category, or a
      category id that names no row). */
  function Uncategorised(bk: Books, ts: seq<Transaction>, uid: Option<int>, ym: YearMonth): int {
    if |ts| == 0 then 0
    else
      var t := ts[0];
      (if InMonth(t, uid, ym) && t.kind == Expense && JoinedName(bk, t).None? then t.amount else 0)
      + Uncategorised(bk, ts[1..], uid, ym)
  }

  /** Reference sum: the month's expenses that join to a category named `name`. */
  function NameSum(bk: Books, ts: seq<Transaction>, uid: Option<int>, ym: YearMonth, name: string): int {
    if |ts| == 0 then 0
    else
      var t := ts[0];
      (if InBreakdown(bk, t, uid, ym) && JoinedName(bk, t) == Some(name) then t.amount else 0)
      + NameSum(bk, ts[1..], uid, ym, name)
  }

  /** The rows `GROUP BY c.name` sees. */
  function NameEntries(bk: Books, ts: seq<Transaction>, uid: Option<int>, ym: YearMonth): seq<(string, int)> {
    if |ts| == 0 then []
    else
      var t := ts[0];
      (if InBreakdown(bk, t, uid, ym) then [(JoinedName(bk, t).value, t.amount)] else [])
      + NameEntries(bk, ts[1..], uid, ym)
  }

  lemma {:induction false} NameEntriesFacts(bk: Books, ts: seq<Transaction>, uid: Option<int>, ym: YearMonth)
    ensures Total(NameEntries(bk, ts, uid, ym)) + Uncategorised(bk, ts, uid, ym) == KindSum(ts, uid, ym, Expense)
    ensures forall name :: SumFor(NameEntries(bk, ts, uid, ym), name) == NameSum(bk, ts, uid, ym, name)
    ensures forall name :: name in KeySet(NameEntries(bk, ts, uid, ym)) <==>
      exists t :: t in ts && InBreakdown(bk, t, uid, ym) && JoinedName(bk, t) == Some(name)
  {
    if |ts| > 0 {
      var t := ts[0];
      NameEntriesFacts(bk, ts[1..], uid, ym);
      var head := if InBreakdown(bk, t, uid, ym) then [(JoinedName(bk, t).value, t.amount)] else [];
      EntriesCons(head, NameEntries(bk, ts, uid, ym), NameEntries(bk, ts[1..], uid, ym));
      forall name ensures SumFor(NameEntries(bk, ts, uid, ym), name) == NameSum(bk, ts, uid, ym, name) {
        SumForCons(head, NameEntries(bk, ts, uid, ym), NameEntries(bk, ts[1..], uid, ym), name);
      }
      forall name ensures name in KeySet(NameEntries(bk, ts, uid, ym)) <==>
        exists u :: u in ts && InBreakdown(bk, u, uid, ym) && JoinedName(bk, u) == Some(name)
      {
        if exists u :: u in ts && InBreakdown(bk, u, uid, ym) && JoinedName(bk, u) == Some(name) {
          var u :| u in ts && InBreakdown(bk, u, uid, ym) && JoinedName(bk, u) == Some(name);
          if u != t {
            assert u in ts[1..];
          }
        }
      }
    }
  }

  /** The expense breakdown: one row per category name, totals
      non-increasing; a name appears exactly when some month expense joins
      to it, with the sum of those expenses; and the rows plus the expenses the join drops account for the
      month's whole expense. Categories of equal name (of different users
      or types) share one row. */
  function Breakdown(bk: Books, uid: Option<int>, today: int): (bs: seq<Bucket<string>>)
    ensures forall i, j :: 0 <= i < j < |bs| ==> bs[i].total >= bs[j].total
    ensures forall i, j :: 0 <= i < j < |bs| ==> bs[i].key != bs[j].key
    ensures forall name :: name in BucketKeys(bs) <==>
      exists t :: t in bk.transactions && InBreakdown(bk, t, uid, MonthOfDay(today)) && JoinedName(bk, t) == Some(name)
    ensures forall i :: 0 <= i < |bs| ==> bs[i].total == NameSum(bk, bk.transactions, uid, MonthOfDay(today), bs[i].key)
    ensures BucketsTotal(bs) + Uncategorised(bk, bk.transactions, uid, MonthOfDay(today))
         == KindSum(bk.transactions, uid, MonthOfDay(today), Expense)
  {
    NameEntriesFacts(bk, bk.transactions, uid, MonthOfDay(today));
    ByTotalDesc(NameEntries(bk, bk.transactions, uid, MonthOfDay(today)))
  }

  // ---------------------------------------------------------------------
  // Daily trend

  datatype TrendRow = TrendRow(date: int, income: int, expense: int)

  /** The (date, part) entries behind `SUM(CASE WHEN type = k THEN amount
      ELSE 0 END)`: every month transaction gives its date, with its amount
      when its type is `k` and 0 otherwise. */
  function DateEntries(ts: seq<Transaction>, uid: Option<int>, ym: YearMonth, k: TxType): seq<(int, int)> {
    if |ts| == 0 then []
    else
      var t := ts[0];
      (if InMonth(t, uid, ym) then [(t.date, if t.kind == k then t.amount else 0)] else [])
      + DateEntries(ts[1..], uid, ym, k)
  }

  /** Reference sum: the amounts of the month's transactions of type `k`
      dated `d`. */
  function DayKindSum(ts: seq<Transaction>, uid: Option<int>, ym: YearMonth, d: int, k: TxType): int {
    if |ts| == 0 then 0
    else
      var t := ts[0];
      (if InMonth(t, uid, ym) && t.date == d && t.kind == k then t.amount else 0) + DayKindSum(ts[1..], uid, ym, d, k)
  }

  /** The dates of the month's transactions. */
  function DatesOf(ts: seq<Transaction>, uid: Option<int>, ym: YearMonth): set<int> {
    set t | t in ts && InMonth(t, uid, ym) :: t.date
  }

  lemma DatesOfCons(ts: seq<Transaction>, uid: Option<int>, ym: YearMonth)
    requires |ts| > 0
    ensures DatesOf(ts, uid, ym) == (if InMonth(ts[0], uid, ym) then {ts[0].date} else {}) + DatesOf(ts[1..], uid, ym)
  {
    assert ts == [ts[0]] + ts[1..];
    assert forall t :: t in ts <==> t == ts[0] || t in ts[1..];
  }

  lemma {:induction false} DateEntriesFacts(ts: seq<Transaction>, uid: Option<int>, ym: YearMonth, k: TxType)
    ensures Total(DateEntries(ts, uid, ym, k)) == KindSum(ts, uid, ym, k)
    ensures forall d :: SumFor(DateEntries(ts, uid, ym, k), d) == DayKindSum(ts, uid, ym, d, k)
    ensures KeySet(DateEntries(ts, uid, ym, k)) == DatesOf(ts, uid, ym)
  {
    if |ts| > 0 {
      var t := ts[0];
      DateEntriesFacts(ts[1..], uid, ym, k);
      var head := if InMonth(t, uid, ym) then [(t.date, if t.kind == k then t.amount else 0)] else [];
      var xs := DateEntries(ts, uid, ym, k);
      EntriesCons(head, xs, DateEntries(ts[1..], uid, ym, k));
      forall d ensures SumFor(xs, d) == DayKindSum(ts, uid, ym, d, k) {
        SumForCons(head, xs, DateEntries(ts[1..], uid, ym, k), d);
      }
      DatesOfCons(ts, uid, ym);
    }
  }

  /** One column of the trend as (date, amount) buckets. */
  function Column(rows: seq<TrendRow>, k: TxType): seq<Bucket<int>> {
    seq(|rows|, i requires 0 <= i < |rows| => Bucket(rows[i].date, Part(rows[i], k)))
  }

  /** The row's income (for `Income`) or expense (for `Expense`). */
  function Part(row: TrendRow, k: TxType): int {
    if k == Income then row.income else row.expense
  }

  /** One row per key of `ks`, with the key's sums in the two entry lists. */
  function TrendRows(income: seq<(int, int)>, expense: seq<(int, int)>, ks: seq<int>): (rows: seq<TrendRow>)
    ensures |rows| == |ks|
    ensures forall i :: 0 <= i < |ks| ==> rows[i] == TrendRow(ks[i], SumFor(income, ks[i]), SumFor(expense, ks[i]))
  {
    seq(|ks|, i requires 0 <= i < |ks| => TrendRow(ks[i], SumFor(income, ks[i]), SumFor(expense, ks[i])))
  }

  /** The trend: one row per date on which the user has a transaction this
      month, dates ascending, each row with that day's income and expense;
      each column adds up to the month's total of its type. */
  function Trend(bk: Books, uid: Option<int>, today: int): (rows: seq<TrendRow>)
    ensures forall i, j :: 0 <= i < j < |rows| ==> rows[i].date < rows[j].date
    ensures forall i :: 0 <= i < |rows| ==> rows[i].date in DatesOf(bk.transactions, uid, MonthOfDay(today))
    ensures forall d :: d in DatesOf(bk.transactions, uid, MonthOfDay(today)) ==>
      exists i :: 0 <= i < |rows| && rows[i].date == d
    ensures forall i :: 0 <= i < |rows| ==>
      && rows[i].income == DayKindSum(bk.transactions, uid, MonthOfDay(today), rows[i].date, Income)
      && rows[i].expense == DayKindSum(bk.transactions, uid, MonthOfDay(today), rows[i].date, Expense)
    ensures BucketsTotal(Column(rows, Income)) == KindSum(bk.transactions, uid, MonthOfDay(today), Income)
    ensures BucketsTotal(Column(rows, Expense)) == KindSum(bk.transactions, uid, MonthOfDay(today), Expense)
  {
    var ym := MonthOfDay(today);
    var income := DateEntries(bk.transactions, uid, ym, Income);
    var expense := DateEntries(bk.transactions, uid, ym, Expense);
    var ks := SortedKeys(income);
    var rows := TrendRows(income, expense, ks);
    DateEntriesFacts(bk.transactions, uid, ym, Income);
    DateEntriesFacts(bk.transactions, uid, ym, Expense);
    TrendDates(ks, rows, DatesOf(bk.transactions, uid, ym));
    ColumnTotal(rows, Income, income, ks);
    ColumnTotal(rows, Expense, expense, ks);
    rows
  }

  lemma TrendDates(ks: seq<int>, rows: seq<TrendRow>, dates: set<int>)
    requires Elements(ks) == dates
    requires |rows| == |ks| && forall i :: 0 <= i < |ks| ==> rows[i].date == ks[i]
    ensures forall i :: 0 <= i < |rows| ==> rows[i].date in dates
    ensures forall d :: d in dates ==> exists i :: 0 <= i < |rows| && rows[i].date == d
  {
    forall d | d in dates ensures exists i :: 0 <= i < |rows| && rows[i].date == d {
      var i :| 0 <= i < |ks| && ks[i] == d;
      assert rows[i].date == d;
    }
  }

  /** A column whose rows carry each key's sum adds up to all the entries. */
  lemma ColumnTotal(rows: seq<TrendRow>, k: TxType, xs: seq<(int, int)>, ks: seq<int>)
    requires Distinct(ks) && Elements(ks) == KeySet(xs)
    requires |rows| == |ks|
    requires forall i :: 0 <= i < |ks| ==> rows[i].date == ks[i] && Part(rows[i], k) == SumFor(xs, ks[i])
    ensures BucketsTotal(Column(rows, k)) == Total(xs)
  {
    var col := Column(rows, k);
    var bs := BucketsFor(xs, ks);
    assert col == bs;
    BucketsForTotal(xs, ks);
    SumOverKeysIsTotal(xs, ks);
  }

  // ---------------------------------------------------------------------
  // Recent transactions

  const RecentLimit := 5

  /** The user's transactions, joined to their category names, in table order. */
  function OwnedRows(bk: Books, uid: Option<int>): (rows: seq<TxRow>)
    ensures forall row :: row in rows <==> exists t :: t in bk.transactions && uid == Some(t.userId) && row == JoinRow(bk, t)
  {
    var picked := Filter(bk.transactions, (t: Transaction) => uid == Some(t.userId));
    var rows := seq(|picked|, i requires 0 <= i < |picked| => JoinRow(bk, picked[i]));
    assert forall row :: row in rows <==> exists t :: t in picked && row == JoinRow(bk, t) by {
      forall row ensures row in rows <==> exists t :: t in picked && row == JoinRow(bk, t) {
        if exists t :: t in picked && row == JoinRow(bk, t) {
          var t :| t in picked && row == JoinRow(bk, t);
          var i :| 0 <= i < |picked| && picked[i] == t;
          assert rows[i] == row;
        }
      }
    }
    rows
  }

  /** `ORDER BY t.date DESC, t.id DESC LIMIT 5`: at most five of the user's
      rows, newest first, and no row left out is newer than one listed. */
  function Recent(bk: Books, uid: Option<int>): (rows: seq<TxRow>)
    ensures |rows| == if |OwnedRows(bk, uid)| < RecentLimit then |OwnedRows(bk, uid)| else RecentLimit
    ensures SortedBy(rows, NewerFirst)
    ensures multiset(rows) <= multiset(OwnedRows(bk, uid))
    ensures forall r, o :: r in rows && o in OwnedRows(bk, uid) && o !in rows ==> NewerFirst(r, o)
  {
    var all := OwnedRows(bk, uid);
    NewerFirstIsPreorder();
    var sorted := SortBy(all, NewerFirst);
    var n := if |all| < RecentLimit then |all| else RecentLimit;
    TopPrefix(all, sorted, n);
    sorted[..n]
  }

  /** The first `n` of a sorted arrangement of `all` come before the rest of `all`. */
  lemma TopPrefix(all: seq<TxRow>, sorted: seq<TxRow>, n: int)
    requires SortedBy(sorted, NewerFirst) && multiset(sorted) == multiset(all)
    requires 0 <= n <= |sorted|
    ensures multiset(sorted[..n]) <= multiset(all)
    ensures forall r, o :: r in sorted[..n] && o in all && o !in sorted[..n] ==> NewerFirst(r, o)
  {
    assert sorted == sorted[..n] + sorted[n..];
    assert multiset(sorted) == multiset(sorted[..n]) + multiset(sorted[n..]);
    forall r, o | r in sorted[..n] && o in all && o !in sorted[..n] ensures NewerFirst(r, o) {
      assert o in multiset(sorted);
      assert forall k :: 0 <= k < n ==> sorted[k] == sorted[..n][k];
      var j :| 0 <= j < |sorted| && sorted[j] == o;
      var i :| 0 <= i < n && sorted[..n][i] == r;
    }
  }
}

=== FILE: grouping.dfy ===
/** `GROUP BY key` with `SUM(amount)`: the reports first turn each selected
    record into a (key, amount) entry, then group the entries into buckets,
    one per distinct key, each carrying the sum of its entries' amounts. */
module Grouping {
  import opened Sorting

  /** One output row of a `GROUP BY … SUM(…)` query. */
  datatype Bucket<K> = Bucket(key: K, total: int)

  /** `SUM(amount)` over all entries (0 for no entries). */
  function Total<K>(xs: seq<(K, int)>): int {
    if |xs| == 0 then 0 else xs[0].1 + Total(xs[1..])
  }

  /** `SUM(amount)` over the entries whose key is `k`. */
  function SumFor<K(==)>(xs: seq<(K, int)>, k: K): int {
    if |xs| == 0 then 0
    else (if xs[0].0 == k then xs[0].1 else 0) + SumFor(xs[1..], k)
  }

  /** The keys that occur among the entries. */
  function KeySet<K>(xs: seq<(K, int)>): set<K> {
    set i | 0 <= i < |xs| :: xs[i].0
  }

  /** The keys carried by a sequence of buckets. */
  function BucketKeys<K>(bs: seq<Bucket<K>>): set<K> {
    set i | 0 <= i < |bs| :: bs[i].key
  }

  /** Sum of the buckets' totals. */
  function BucketsTotal<K>(bs: seq<Bucket<K>>): int {
    if |bs| == 0 then 0 else bs[0].total + BucketsTotal(bs[1..])
  }

  /** The set of elements of a sequence. */
  function Elements<T>(s: seq<T>): set<T> {
    set i | 0 <= i < |s| :: s[i]
  }

  lemma KeySetTail<K>(xs: seq<(K, int)>)
    requires |xs| > 0
    ensures KeySet(xs) == {xs[0].0} + KeySet(xs[1..])
  {
    forall k | k in KeySet(xs) ensures k in {xs[0].0} + KeySet(xs[1..]) {
      var i :| 0 <= i < |xs| && xs[i].0 == k;
      if i > 0 {
        assert xs[1..][i - 1].0 == k;
      }
    }
    forall k | k in KeySet(xs[1..]) ensures k in KeySet(xs) {
      var i :| 0 <= i < |xs[1..]| && xs[1..][i].0 == k;
      assert xs[i + 1].0 == k;
    }
  }

  /** The distinct keys of the entries, each once. */
  function DistinctKeys<K(==)>(xs: seq<(K, int)>): (ks: seq<K>)
    ensures Distinct(ks)
    ensures Elements(ks) == KeySet(xs)
  {
    if |xs| == 0 then []
    else
      var rest := DistinctKeys(xs[1..]);
      KeySetTail(xs);
      if xs[0].0 in rest then
        assert xs[0].0 in Elements(rest);
        rest
      else
        var ks := [xs[0].0] + rest;
        ElementsCons(xs[0].0, rest);
        ks
  }

  lemma ElementsCons<T>(x: T, s: seq<T>)
    ensures Elements([x] + s) == {x} + Elements(s)
  {
    var ks := [x] + s;
    forall k | k in Elements(ks) ensures k in {x} + Elements(s) {
      var i :| 0 <= i < |ks| && ks[i] == k;
      if i > 0 { assert s[i - 1] == k; }
    }
    forall k | k in {x} + Elements(s) ensures k in Elements(ks) {
      if k == x {
        assert ks[0] == k;
      } else {
        var i :| 0 <= i < |s| && s[i] == k;
        assert ks[i + 1] == k;
      }
    }
  }

  /** A duplicate-free sequence has as many elements as its set. */
  lemma {:induction false} DistinctCard<T>(s: seq<T>)
    requires Distinct(s)
    ensures |Elements(s)| == |s|
  {
    if |s| > 0 {
      assert Distinct(s[1..]);
      DistinctCard(s[1..]);
      assert s == [s[0]] + s[1..];
      ElementsCons(s[0], s[1..]);
      assert s[0] !in Elements(s[1..]);
    }
  }

  /** One bucket per key of `ks`, in that order, with the key's sum. */
  function BucketsFor<K(==)>(xs: seq<(K, int)>, ks: seq<K>): (bs: seq<Bucket<K>>)
    ensures |bs| == |ks|
    ensures forall i :: 0 <= i < |ks| ==> bs[i] == Bucket(ks[i], SumFor(xs, ks[i]))
  {
    seq(|ks|, i requires 0 <= i < |ks| => Bucket(ks[i], SumFor(xs, ks[i])))
  }

  /** The buckets for `ks` carry exactly the keys of `ks`. */
  lemma BucketsForKeys<K>(xs: seq<(K, int)>, ks: seq<K>)
    ensures BucketKeys(BucketsFor(xs, ks)) == Elements(ks)
  {
    var bs := BucketsFor(xs, ks);
    forall k | k in BucketKeys(bs) ensures k in Elements(ks) {
      var i :| 0 <= i < |bs| && bs[i].key == k;
      assert ks[i] == k;
    }
    forall k | k in Elements(ks) ensures k in BucketKeys(bs) {
      var i :| 0 <= i < |ks| && ks[i] == k;
      assert bs[i].key == k;
    }
  }

  /** Sum, over the keys `ks`, of each key's `SumFor`. */
  function SumOverKeys<K(==)>(xs: seq<(K, int)>, ks: seq<K>): int {
    if |ks| == 0 then 0 else SumFor(xs, ks[0]) + SumOverKeys(xs, ks[1..])
  }

  /** Sum over `ks` of "`a` when the key is `k`, else 0". */
  function Spread<K(==)>(ks: seq<K>, k: K, a: int): int {
    if |ks| == 0 then 0 else (if ks[0] == k then a else 0) + Spread(ks[1..], k, a)
  }

  lemma {:induction false} SpreadOnce<K>(ks: seq<K>, k: K, a: int)
    requires Distinct(ks)
    ensures Spread(ks, k, a) == if k in ks then a else 0
  {
    if |ks| > 0 {
      assert Distinct(ks[1..]);
      SpreadOnce(ks[1..], k, a);
      assert ks == [ks[0]] + ks[1..];
      if ks[0] == k {
        assert k !in ks[1..];
      }
    }
  }

  lemma {:induction false} SumOverKeysStep<K>(xs: seq<(K, int)>, ks: seq<K>)
    requires |xs| > 0
    ensures SumOverKeys(xs, ks) == Spread(ks, xs[0].0, xs[0].1) + SumOverKeys(xs[1..], ks)
  {
    if |ks| > 0 {
      SumOverKeysStep(xs, ks[1..]);
    }
  }

  /** Cross-check: summing the per-key sums over a duplicate-free list of keys
      that covers every key gives the sum of all entries. */
  lemma {:induction false} SumOverKeysIsTotal<K>(xs: seq<(K, int)>, ks: seq<K>)
    requires Distinct(ks)
    requires KeySet(xs) <= Elements(ks)
    ensures SumOverKeys(xs, ks) == Total(xs)
  {
    if |xs| == 0 {
      assert SumOverKeys(xs, ks) == 0 by { ZeroKeys(xs, ks); }
    } else {
      KeySetTail(xs);
      SumOverKeysStep(xs, ks);
      SpreadOnce(ks, xs[0].0, xs[0].1);
      assert xs[0].0 in Elements(ks);
      SumOverKeysIsTotal(xs[1..], ks);
    }
  }

  lemma {:induction false} ZeroKeys<K>(xs: seq<(K, int)>, ks: seq<K>)
    requires |xs| == 0
    ensures SumOverKeys(xs, ks) == 0
  {
    if |ks| > 0 {
      ZeroKeys(xs, ks[1..]);
    }
  }

  lemma {:induction false} BucketsForTotal<K>(xs: seq<(K, int)>, ks: seq<K>)
    ensures BucketsTotal(BucketsFor(xs, ks)) == SumOverKeys(xs, ks)
  {
    if |ks| > 0 {
      BucketsForTotal(xs, ks[1..]);
      assert BucketsFor(xs, ks)[1..] == BucketsFor(xs, ks[1..]);
    }
  }

  lemma {:induction false} BucketsTotalAppend<K>(a: seq<Bucket<K>>, b: seq<Bucket<K>>)
    ensures BucketsTotal(a + b) == BucketsTotal(a) + BucketsTotal(b)
  {
    if |a| > 0 {
      assert (a + b)[1..] == a[1..] + b;
      BucketsTotalAppend(a[1..], b);
    } else {
      assert a + b == b;
    }
  }

  /** Removing the bucket at `i` removes one copy of it and its total. */
  lemma RemoveAt<K>(t: seq<Bucket<K>>, i: int)
    requires 0 <= i < |t|
    ensures multiset(t[..i] + t[i + 1..]) == multiset(t) - multiset{t[i]}
    ensures BucketsTotal(t) == t[i].total + BucketsTotal(t[..i] + t[i + 1..])
  {
    RemoveAtMultiset(t, i);
    RemoveAtTotal(t, i);
  }

  lemma RemoveAtMultiset<K>(t: seq<Bucket<K>>, i: int)
    requires 0 <= i < |t|
    ensures multiset(t[..i] + t[i + 1..]) == multiset(t) - multiset{t[i]}
  {
    assert t == t[..i] + [t[i]] + t[i + 1..];
  }

  lemma RemoveAtTotal<K>(t: seq<Bucket<K>>, i: int)
    requires 0 <= i < |t|
    ensures BucketsTotal(t) == t[i].total + BucketsTotal(t[..i] + t[i + 1..])
  {
    var (a, x, b) := (t[..i], t[i], t[i + 1..]);
    SplitAt(t, i);
    BucketsTotalAppend(a, [x] + b);
    ConsTotal(x, b);
    BucketsTotalAppend(a, b);
  }

  lemma SplitAt<T>(t: seq<T>, i: int)
    requires 0 <= i < |t|
    ensures t == t[..i] + ([t[i]] + t[i + 1..])
  {
  }

  lemma ConsTotal<K>(x: Bucket<K>, b: seq<Bucket<K>>)
    ensures BucketsTotal([x] + b) == x.total + BucketsTotal(b)
  {
    assert ([x] + b)[1..] == b;
  }

  /** Reordering buckets does not change their sum. */
  lemma {:induction false} BucketsTotalPermutation<K>(s: seq<Bucket<K>>, t: seq<Bucket<K>>)
    requires multiset(s) == multiset(t)
    ensures BucketsTotal(s) == BucketsTotal(t)
    decreases |s|
  {
    if |s| == 0 {
      assert |t| == |multiset(t)| == 0;
    } else {
      var i := IndexOf(s[0], t);
      RemoveAt(t, i);
      DropFirstMultiset(s);
      BucketsTotalPermutation(s[1..], t[..i] + t[i + 1..]);
    }
  }

  /** A position of `x` in `t`. */
  lemma IndexOf<T>(x: T, t: seq<T>) returns (i: int)
    requires x in multiset(t)
    ensures 0 <= i < |t| && t[i] == x
  {
    assert x in t;
    i :| 0 <= i < |t| && t[i] == x;
  }

  /** Dropping the first element removes one copy of it. */
  lemma DropFirstMultiset<T>(s: seq<T>)
    requires |s| > 0
    ensures multiset(s[1..]) == multiset(s) - multiset{s[0]}
  {
    assert s == [s[0]] + s[1..];
  }

  /** The `ORDER BY total DESC` comparison. */
  predicate TotalNotBelow<K>(a: Bucket<K>, b: Bucket<K>) {
    a.total >= b.total
  }

  lemma TotalNotBelowIsPreorder<K(!new)>()
    ensures TotalPreorder(TotalNotBelow<K>)
  {
  }

  /** `GROUP BY key ORDER BY SUM(amount) DESC`: one bucket per distinct key,
      each with its key's sum, the buckets in non-increasing order of total.
      The order among equal totals is not specified. */
  function ByTotalDesc<K(==, !new)>(xs: seq<(K, int)>): (bs: seq<Bucket<K>>)
    ensures forall i, j :: 0 <= i < j < |bs| ==> bs[i].total >= bs[j].total
    ensures forall i, j :: 0 <= i < j < |bs| ==> bs[i].key != bs[j].key
    ensures BucketKeys(bs) == KeySet(xs)
    ensures forall i :: 0 <= i < |bs| ==> bs[i].total == SumFor(xs, bs[i].key)
    ensures BucketsTotal(bs) == Total(xs)
  {
    var ks := DistinctKeys(xs);
    var grouped := BucketsFor(xs, ks);
    TotalNotBelowIsPreorder<K>();
    var bs := SortBy(grouped, TotalNotBelow<K>);
    ByTotalDescFacts(xs, ks, grouped, bs);
    bs
  }

  lemma ByTotalDescFacts<K(!new)>(xs: seq<(K, int)>, ks: seq<K>, grouped: seq<Bucket<K>>, bs: seq<Bucket<K>>)
    requires Distinct(ks) && Elements(ks) == KeySet(xs)
    requires grouped == BucketsFor(xs, ks)
    requires multiset(bs) == multiset(grouped)
    ensures forall i, j :: 0 <= i < j < |bs| ==> bs[i].key != bs[j].key
    ensures BucketKeys(bs) == KeySet(xs)
    ensures forall i :: 0 <= i < |bs| ==> bs[i].total == SumFor(xs, bs[i].key)
    ensures BucketsTotal(bs) == Total(xs)
  {
    assert Distinct(grouped) by {
      forall i, j | 0 <= i < j < |grouped| ensures grouped[i] != grouped[j] {
        assert grouped[i].key == ks[i] && grouped[j].key == ks[j];
      }
    }
    DistinctPermutation(grouped, bs);
    forall i | 0 <= i < |bs| ensures bs[i] in grouped {
      assert bs[i] in multiset(grouped);
    }
    forall i | 0 <= i < |bs| ensures bs[i].total == SumFor(xs, bs[i].key) {
      assert bs[i] in grouped;
    }
    forall k | k in BucketKeys(bs) ensures k in KeySet(xs) {
      var i :| 0 <= i < |bs| && bs[i].key == k;
      assert bs[i] in grouped;
      var j :| 0 <= j < |grouped| && grouped[j] == bs[i];
      assert ks[j] == k && k in Elements(ks);
    }
    forall k | k in KeySet(xs) ensures k in BucketKeys(bs) {
      assert k in Elements(ks);
      var j :| 0 <= j < |ks| && ks[j] == k;
      assert grouped[j] in multiset(bs);
      var i :| 0 <= i < |bs| && bs[i] == grouped[j];
      assert bs[i].key == k;
    }
    BucketsTotalPermutation(bs, grouped);
    BucketsForTotal(xs, ks);
    SumOverKeysIsTotal(xs, ks);
  }

  predicate IntLe(a: int, b: int) {
    a <= b
  }

  lemma IntLeIsPreorder()
    ensures TotalPreorder(IntLe)
  {
  }

  /** The distinct keys of the entries, strictly ascending. */
  function SortedKeys(xs: seq<(int, int)>): (ks: seq<int>)
    ensures forall i, j :: 0 <= i < j < |ks| ==> ks[i] < ks[j]
    ensures Distinct(ks)
    ensures Elements(ks) == KeySet(xs)
    ensures |ks| == |KeySet(xs)|
  {
    var ds := DistinctKeys(xs);
    IntLeIsPreorder();
    var ks := SortBy(ds, IntLe);
    DistinctPermutation(ds, ks);
    SameElements(ds, ks);
    DistinctCard(ks);
    ks
  }

  lemma SameElements<T>(s: seq<T>, t: seq<T>)
    requires multiset(s) == multiset(t)
    ensures Elements(s) == Elements(t)
  {
    forall x | x in Elements(s) ensures x in Elements(t) {
      var i :| 0 <= i < |s| && s[i] == x;
      assert x in multiset(t);
    }
    forall x | x in Elements(t) ensures x in Elements(s) {
      var i :| 0 <= i < |t| && t[i] == x;
      assert x in multiset(s);
    }
  }

  /** `GROUP BY key ORDER BY key ASC`: one bucket per distinct key, each with
      its key's sum, keys strictly ascending; keys without entries are absent. */
  function ByKeyAsc(xs: seq<(int, int)>): (bs: seq<Bucket<int>>)
    ensures forall i, j :: 0 <= i < j < |bs| ==> bs[i].key < bs[j].key
    ensures BucketKeys(bs) == KeySet(xs)
    ensures forall i :: 0 <= i < |bs| ==> bs[i].total == SumFor(xs, bs[i].key)
    ensures |bs| == |KeySet(xs)|
    ensures BucketsTotal(bs) == Total(xs)
  {
    var ks := SortedKeys(xs);
    var bs := BucketsFor(xs, ks);
    BucketsForKeys(xs, ks);
    BucketsForTotal(xs, ks);
    SumOverKeysIsTotal(xs, ks);
    bs
  }
}

=== FILE: ledger.dfy ===
/** The single-user store behind both API backends: the `categories` and
    `expenses` tables, with the constraints the schema declares (serial
    primary keys, `categories.name UNIQUE`, `expenses.category_id REFERENCES
    categories(id) ON DELETE SET NULL`). Store operations are functions from
    store to store. */
module Ledger {
  import opened Results
  import opened Sorting

  datatype Category = Category(id: int, name: string, color: Option<string>)

  /** An expense; `occurredAt` is the event instant (see `Calendar`). */
  datatype Expense = Expense(
    id: int,
    categoryId: Option<int>,
    amount: int,
    note: Option<string>,
    occurredAt: int)

  /** Table contents plus the next values of the two id sequences. */
  datatype Store = Store(
    categories: seq<Category>,
    expenses: seq<Expense>,
    nextCategoryId: int,
    nextExpenseId: int)

  /** Why the store refused a write. */
  datatype StoreError =
    | DuplicateName     // UNIQUE (name) on categories
    | MissingCategory   // the foreign key on expenses.category_id

  /** No row is stored twice, a primary key identifies its row and stays
      below its sequence, and a category name identifies its row. */
  ghost predicate Valid(st: Store) {
    && Distinct(st.categories)
    && Distinct(st.expenses)
    && (forall c, d :: c in st.categories && d in st.categories && (c.id == d.id || c.name == d.name) ==> c == d)
    && (forall c :: c in st.categories ==> c.id < st.nextCategoryId)
    && (forall e, f :: e in st.expenses && f in st.expenses && e.id == f.id ==> e == f)
    && (forall e :: e in st.expenses ==> e.id < st.nextExpenseId)
  }

  /** Every category an expense names exists (what the foreign key keeps). */
  ghost predicate ReferencesResolve(st: Store) {
    forall e :: e in st.expenses && e.categoryId.Some? ==>
      exists c :: c in st.categories && c.id == e.categoryId.value
  }

  /** The category with the given id, if any. */
  function FindCategory(cats: seq<Category>, id: int): (r: Option<Category>)
    ensures r.Some? ==> r.value in cats && r.value.id == id
    ensures r.None? ==> forall c :: c in cats ==> c.id != id
  {
    if |cats| == 0 then None
    else if cats[0].id == id then Some(cats[0])
    else FindCategory(cats[1..], id)
  }

  /** Some category already carries this name. */
  predicate NameTaken(cats: seq<Category>, name: string) {
    exists c :: c in cats && c.name == name
  }

  /** The effect of an insert: the store afterwards and the new row, or
      why the row was refused. A refused insert may still have drawn an id
      from its sequence, so the store is returned either way. */
  datatype Write<T> = Write(store: Store, result: Result<T, StoreError>)

  /** `INSERT INTO categories …` under `UNIQUE (name)`: the new row takes the
      next id; a taken name adds no row. Postgres evaluates the serial
      default before `ON CONFLICT (name) DO NOTHING` finds the clash, so
      with `drawsOnConflict` the refused insert still uses up an id; SQLite
      takes none. */
  function InsertCategory(st: Store, drawsOnConflict: bool, name: string, color: Option<string>): (w: Write<Category>)
    ensures w.result.Err? <==> NameTaken(st.categories, name)
    ensures w.result.Err? ==> w.result.error == DuplicateName
    ensures w.store.categories == (if w.result.Ok? then st.categories + [w.result.value] else st.categories)
    ensures w.store.expenses == st.expenses && w.store.nextExpenseId == st.nextExpenseId
    ensures w.store.nextCategoryId == st.nextCategoryId + (if w.result.Ok? || drawsOnConflict then 1 else 0)
    ensures w.result.Ok? ==> var c := w.result.value;
      c.name == name && c.color == color && c.id == st.nextCategoryId
  {
    if NameTaken(st.categories, name) then
      Write(st.(nextCategoryId := if drawsOnConflict then st.nextCategoryId + 1 else st.nextCategoryId), Err(DuplicateName))
    else
      var c := Category(st.nextCategoryId, name, color);
      Write(st.(categories := st.categories + [c], nextCategoryId := st.nextCategoryId + 1), Ok(c))
  }

  /** Inserting a category, or failing to, keeps the store's constraints. */
  lemma InsertCategoryKeepsValid(st: Store, drawsOnConflict: bool, name: string, color: Option<string>)
    requires Valid(st) && ReferencesResolve(st)
    ensures var w := InsertCategory(st, drawsOnConflict, name, color);
      Valid(w.store) && ReferencesResolve(w.store)
  {
    var w := InsertCategory(st, drawsOnConflict, name, color);
    var st' := w.store;
    forall e | e in st'.expenses && e.categoryId.Some?
      ensures exists c :: c in st'.categories && c.id == e.categoryId.value
    {
      var c :| c in st.categories && c.id == e.categoryId.value;
      assert c in st'.categories;
    }
  }

  /** `INSERT INTO expenses …`: the new row takes the next id. When the store
      enforces the foreign key, an unknown category refuses the row; the
      check runs once the row is built, so the id is used up all the same. */
  function InsertExpense(st: Store, enforceForeignKey: bool, categoryId: int, amount: int,
                         note: Option<string>, occurredAt: int): (w: Write<int>)
    ensures w.result.Err? <==> enforceForeignKey && FindCategory(st.categories, categoryId).None?
    ensures w.result.Err? ==> w.result.error == MissingCategory
    ensures w.store.expenses == st.expenses +
      (if w.result.Ok? then [Expense(w.result.value, Some(categoryId), amount, note, occurredAt)] else [])
    ensures w.store.categories == st.categories && w.store.nextCategoryId == st.nextCategoryId
    ensures w.store.nextExpenseId == st.nextExpenseId + 1
    ensures w.result.Ok? ==> w.result.value == st.nextExpenseId
  {
    var drawn := st.(nextExpenseId := st.nextExpenseId + 1);
    if enforceForeignKey && FindCategory(st.categories, categoryId).None? then Write(drawn, Err(MissingCategory))
    else
      var e := Expense(st.nextExpenseId, Some(categoryId), amount, note, occurredAt);
      Write(drawn.(expenses := st.expenses + [e]), Ok(st.nextExpenseId))
  }

  /** Inserting an expense, or failing to, keeps the store's constraints;
      with the foreign key enforced it also keeps every reference
      resolvable. */
  lemma InsertExpenseKeepsValid(st: Store, enforceForeignKey: bool, categoryId: int, amount: int,
                                note: Option<string>, occurredAt: int)
    requires Valid(st) && ReferencesResolve(st)
    ensures var w := InsertExpense(st, enforceForeignKey, categoryId, amount, note, occurredAt);
      Valid(w.store) && (enforceForeignKey ==> ReferencesResolve(w.store))
  {
    var w := InsertExpense(st, enforceForeignKey, categoryId, amount, note, occurredAt);
    if w.result.Ok? {
      var st' := w.store;
      var e := Expense(st.nextExpenseId, Some(categoryId), amount, note, occurredAt);
      assert st'.expenses == st.expenses + [e];
      assert e !in st.expenses;
      if enforceForeignKey {
        var c := FindCategory(st.categories, categoryId).value;
        forall f | f in st'.expenses && f.categoryId.Some?
          ensures exists c :: c in st'.categories && c.id == f.categoryId.value
        {
          if f !in st.expenses {
            assert c in st'.categories && c.id == f.categoryId.value;
          }
        }
      }
    }
  }

  /** An expense after its category `id` was deleted: the reference is nulled. */
  function Unlink(e: Expense, id: int): Expense {
    if e.categoryId == Some(id) then e.(categoryId := None) else e
  }

  /** `DELETE FROM categories WHERE id = …` under `ON DELETE SET NULL`: the
      category goes, every expense stays, references to it become NULL. */
  function DeleteCategory(st: Store, id: int): (st': Store)
    ensures forall c :: c in st'.categories <==> c in st.categories && c.id != id
    ensures |st'.expenses| == |st.expenses|
    ensures forall i :: 0 <= i < |st.expenses| ==>
      var (e, e') := (st.expenses[i], st'.expenses[i]);
      && e'.id == e.id && e'.amount == e.amount && e'.note == e.note && e'.occurredAt == e.occurredAt
      && e'.categoryId == (if e.categoryId == Some(id) then None else e.categoryId)
  {
    var cats := RemoveCategory(st.categories, id);
    st.(categories := cats, expenses := seq(|st.expenses|, i requires 0 <= i < |st.expenses| => Unlink(st.expenses[i], id)))
  }

  /** The categories other than `id`, in their order. */
  function RemoveCategory(cats: seq<Category>, id: int): (r: seq<Category>)
    ensures forall c :: c in r <==> c in cats && c.id != id
    ensures Distinct(cats) ==> Distinct(r)
  {
    if |cats| == 0 then []
    else
      var rest := RemoveCategory(cats[1..], id);
      if cats[0].id == id then rest
      else
        assert Distinct(cats) ==> cats[0] !in cats[1..] && Distinct(cats[1..]);
        [cats[0]] + rest
  }

  /** Deleting a category keeps the store's constraints, and no expense is
      left pointing at the deleted category. */
  lemma DeleteCategoryKeepsValid(st: Store, id: int)
    requires Valid(st) && ReferencesResolve(st)
    ensures Valid(DeleteCategory(st, id)) && ReferencesResolve(DeleteCategory(st, id))
  {
    var st' := DeleteCategory(st, id);
    UnlinkedExpensesValid(st, id, st');
    forall e | e in st'.expenses && e.categoryId.Some?
      ensures exists c :: c in st'.categories && c.id == e.categoryId.value
    {
      var i :| 0 <= i < |st'.expenses| && st'.expenses[i] == e;
      var old_e := st.expenses[i];
      assert old_e in st.expenses;
      var c :| c in st.categories && c.id == old_e.categoryId.value;
      assert c in st'.categories;
    }
  }

  lemma UnlinkedExpensesValid(st: Store, id: int, st': Store)
    requires Valid(st) && st' == DeleteCategory(st, id)
    ensures Distinct(st'.expenses)
    ensures forall e, f :: e in st'.expenses && f in st'.expenses && e.id == f.id ==> e == f
    ensures forall e :: e in st'.expenses ==> e.id < st'.nextExpenseId
  {
    forall e | e in st'.expenses
      ensures exists i :: 0 <= i < |st.expenses| && e == Unlink(st.expenses[i], id)
    {
      var i :| 0 <= i < |st'.expenses| && st'.expenses[i] == e;
    }
    forall i, j | 0 <= i < j < |st'.expenses| ensures st'.expenses[i] != st'.expenses[j] {
      assert st.expenses[i] != st.expenses[j];
      assert st.expenses[i] in st.expenses && st.expenses[j] in st.expenses;
    }
    forall e, f | e in st'.expenses && f in st'.expenses && e.id == f.id ensures e == f {
      var i :| 0 <= i < |st.expenses| && e == Unlink(st.expenses[i], id);
      var j :| 0 <= j < |st.expenses| && f == Unlink(st.expenses[j], id);
      assert st.expenses[i] in st.expenses && st.expenses[j] in st.expenses;
    }
    forall e | e in st'.expenses ensures e.id < st'.nextExpenseId {
      var i :| 0 <= i < |st.expenses| && e == Unlink(st.expenses[i], id);
      assert st.expenses[i] in st.expenses;
    }
  }
}

=== FILE: params.dfy ===
/** Request values as the handlers receive them, and PHP's truthiness on
    them. Every handler takes fields already decoded from the query string,
    the form or the JSON body. */
module Params {
  import opened Results
  import opened Text

  /** A numeric field: absent (or JSON null), text that is not a number, or
      a whole number. The empty string reads as `Numeric(0)` in both
      languages. */
  datatype NumParam = Absent | NotNumeric | Numeric(n: int)

  /** An id field: absent (or null), the empty string, or a number. */
  datatype IdParam = Missing | Blank | Id(n: int)

  /** PHP's `(float)` / `(int)` cast of a numeric field: absent and
      non-numeric text read as 0. */
  function PhpNumber(p: NumParam): (v: int)
    ensures p.Numeric? ==> v == p.n
    ensures !p.Numeric? ==> v == 0
  {
    match p
    case Numeric(n) => n
    case _ => 0
  }

  /** PHP truthiness of an id field: "" and "0" are falsy, as is absence. */
  predicate IdTruthy(p: IdParam) {
    p.Id? && p.n != 0
  }

  /** PHP truthiness of an optional text field. */
  predicate TextTruthy(s: Option<string>) {
    s.Some? && !PhpFalsy(s.value)
  }
}

=== FILE: reports.dfy ===
/** The aggregation engine shared by both API backends: the expense listing,
    the per-day and per-category sums, and the monthly rollup, each a pure
    function of the store and a window of `occurred_at` instants. */
module Reports {
  import opened Results
  import opened Sorting
  import opened Grouping
  import opened Calendar
  import opened Ledger

  /** Inclusive bounds on `occurred_at`; an absent bound imposes nothing. */
  datatype Window = Window(lo: Option<int>, hi: Option<int>)

  predicate InWindow(w: Window, t: int) {
    (w.lo.None? || w.lo.value <= t) && (w.hi.None? || t <= w.hi.value)
  }

  /** The category id the `LEFT JOIN categories c ON e.category_id = c.id`
      yields as `c.id`: NULL for an uncategorized expense and for one whose
      category row does not exist. */
  function JoinedId(cats: seq<Category>, e: Expense): (k: Option<int>)
    ensures k.Some? <==> e.categoryId.Some? && exists c :: c in cats && c.id == e.categoryId.value
    ensures k.Some? ==> k == e.categoryId
  {
    match e.categoryId
    case None => None
    case Some(id) => if FindCategory(cats, id).Some? then Some(id) else None
  }

  /** The window with no bound: every expense. */
  const AllTime := Window(None, None)

  /** (day, amount) for each expense of the window, in store order. */
  function DayEntries(es: seq<Expense>, w: Window): seq<(int, int)> {
    if |es| == 0 then []
    else if InWindow(w, es[0].occurredAt) then [(DayOf(es[0].occurredAt), es[0].amount)] + DayEntries(es[1..], w)
    else DayEntries(es[1..], w)
  }

  /** (joined category id, amount) for each expense of the window. */
  function CategoryEntries(cats: seq<Category>, es: seq<Expense>, w: Window): seq<(Option<int>, int)> {
    if |es| == 0 then []
    else if InWindow(w, es[0].occurredAt) then [(JoinedId(cats, es[0]), es[0].amount)] + CategoryEntries(cats, es[1..], w)
    else CategoryEntries(cats, es[1..], w)
  }

  /** `SUM(amount)` over the window, 0 when it is empty. */
  function WindowTotal(es: seq<Expense>, w: Window): int {
    if |es| == 0 then 0
    else (if InWindow(w, es[0].occurredAt) then es[0].amount else 0) + WindowTotal(es[1..], w)
  }

  /** Sum of the window's amounts that fall on day `d`. */
  function DaySum(es: seq<Expense>, w: Window, d: int): int {
    if |es| == 0 then 0
    else
      var here := if InWindow(w, es[0].occurredAt) && DayOf(es[0].occurredAt) == d then es[0].amount else 0;
      here + DaySum(es[1..], w, d)
  }

  /** Sum of the window's amounts whose joined category id is `k`. */
  function CategorySum(cats: seq<Category>, es: seq<Expense>, w: Window, k: Option<int>): int {
    if |es| == 0 then 0
    else
      var here := if InWindow(w, es[0].occurredAt) && JoinedId(cats, es[0]) == k then es[0].amount else 0;
      here + CategorySum(cats, es[1..], w, k)
  }

  /** Past a midnight, a day's sum in the window that starts there takes in
      every expense of that day. */
  lemma {:induction false} DaySumFromMidnight(es: seq<Expense>, sd: int, d: int)
    requires sd <= d
    ensures DaySum(es, Window(Some(StartOfDay(sd)), None), d) == DaySum(es, AllTime, d)
  {
    if |es| > 0 {
      DaySumFromMidnight(es[1..], sd, d);
      AtOrAfterStartOfDay(sd, es[0].occurredAt);
    }
  }

  /** The days with at least one expense in the window. */
  ghost function DaysWithData(es: seq<Expense>, w: Window): set<int> {
    set e | e in es && InWindow(w, e.occurredAt) :: DayOf(e.occurredAt)
  }

  /** The joined category ids of the window's expenses. */
  ghost function CategoriesWithData(cats: seq<Category>, es: seq<Expense>, w: Window): set<Option<int>> {
    set e | e in es && InWindow(w, e.occurredAt) :: JoinedId(cats, e)
  }

  lemma {:induction false} DayEntriesFacts(es: seq<Expense>, w: Window)
    ensures KeySet(DayEntries(es, w)) == DaysWithData(es, w)
    ensures Total(DayEntries(es, w)) == WindowTotal(es, w)
    ensures forall d :: SumFor(DayEntries(es, w), d) == DaySum(es, w, d)
  {
    if |es| > 0 {
      DayEntriesFacts(es[1..], w);
      var xs := DayEntries(es, w);
      assert DaysWithData(es, w) ==
        (if InWindow(w, es[0].occurredAt) then {DayOf(es[0].occurredAt)} else {}) + DaysWithData(es[1..], w)
      by {
        assert es == [es[0]] + es[1..];
      }
      if InWindow(w, es[0].occurredAt) {
        KeySetTail(xs);
        assert xs[1..] == DayEntries(es[1..], w);
      }
    }
  }

  lemma {:induction false} CategoryEntriesFacts(cats: seq<Category>, es: seq<Expense>, w: Window)
    ensures KeySet(CategoryEntries(cats, es, w)) == CategoriesWithData(cats, es, w)
    ensures Total(CategoryEntries(cats, es, w)) == WindowTotal(es, w)
    ensures forall k :: SumFor(CategoryEntries(cats, es, w), k) == CategorySum(cats, es, w, k)
  {
    if |es| > 0 {
      CategoryEntriesFacts(cats, es[1..], w);
      var xs := CategoryEntries(cats, es, w);
      assert CategoriesWithData(cats, es, w) ==
        (if InWindow(w, es[0].occurredAt) then {JoinedId(cats, es[0])} else {}) + CategoriesWithData(cats, es[1..], w)
      by {
        assert es == [es[0]] + es[1..];
      }
      if InWindow(w, es[0].occurredAt) {
        KeySetTail(xs);
        assert xs[1..] == CategoryEntries(cats, es[1..], w);
      }
    }
  }

  /** `SELECT date_trunc('day', occurred_at) AS day, SUM(amount) … GROUP BY day
      ORDER BY day ASC`: one row per day that has an expense in the window,
      carrying that day's sum, days strictly ascending; days without an
      expense are absent. */
  function DailyTotals(es: seq<Expense>, w: Window): (rows: seq<Bucket<int>>)
    ensures forall i, j :: 0 <= i < j < |rows| ==> rows[i].key < rows[j].key
    ensures BucketKeys(rows) == DaysWithData(es, w)
    ensures forall i :: 0 <= i < |rows| ==> rows[i].total == DaySum(es, w, rows[i].key)
    ensures |rows| == |DaysWithData(es, w)|
    ensures BucketsTotal(rows) == WindowTotal(es, w)
  {
    DayEntriesFacts(es, w);
    ByKeyAsc(DayEntries(es, w))
  }

  /** One row of the category summary: the joined category's id, name and
      color (all NULL for the uncategorized group) and the group's sum. */
  datatype CategoryRow = CategoryRow(id: Option<int>, name: Option<string>, color: Option<string>, total: int)

  /** The row for the group with joined id `k`. */
  function DescribeGroup(cats: seq<Category>, k: Option<int>, total: int): CategoryRow {
    if k.None? then CategoryRow(None, None, None, total)
    else match FindCategory(cats, k.value)
      case Some(c) => CategoryRow(k, Some(c.name), c.color, total)
      case None => CategoryRow(k, None, None, total)
  }

  function RowsTotal(rows: seq<CategoryRow>): int {
    if |rows| == 0 then 0 else rows[0].total + RowsTotal(rows[1..])
  }

  lemma {:induction false} DescribedTotal(cats: seq<Category>, bs: seq<Bucket<Option<int>>>, rows: seq<CategoryRow>)
    requires |rows| == |bs|
    requires forall i :: 0 <= i < |bs| ==> rows[i].total == bs[i].total
    ensures RowsTotal(rows) == BucketsTotal(bs)
  {
    if |bs| > 0 {
      DescribedTotal(cats, bs[1..], rows[1..]);
    }
  }

  /** `SELECT c.id, c.name, c.color, SUM(e.amount) … LEFT JOIN categories c …
      GROUP BY c.id, c.name, c.color ORDER BY total DESC`: one row per joined
      category id, with every uncategorized expense in the single NULL row,
      rows in non-increasing order of total (ties in no promised order). */
  function CategoryTotals(cats: seq<Category>, es: seq<Expense>, w: Window): (rows: seq<CategoryRow>)
    ensures forall i, j :: 0 <= i < j < |rows| ==> rows[i].total >= rows[j].total
    ensures forall i, j :: 0 <= i < j < |rows| ==> rows[i].id != rows[j].id
    ensures forall k :: k in CategoriesWithData(cats, es, w) <==> exists i :: 0 <= i < |rows| && rows[i].id == k
    ensures forall i :: 0 <= i < |rows| ==>
      rows[i] == DescribeGroup(cats, rows[i].id, CategorySum(cats, es, w, rows[i].id))
    ensures RowsTotal(rows) == WindowTotal(es, w)
  {
    var bs := ByTotalDesc(CategoryEntries(cats, es, w));
    var rows := seq(|bs|, i requires 0 <= i < |bs| => DescribeGroup(cats, bs[i].key, bs[i].total));
    CategoryRowsFacts(cats, es, w, bs, rows);
    rows
  }

  lemma CategoryRowsFacts(cats: seq<Category>, es: seq<Expense>, w: Window,
                          bs: seq<Bucket<Option<int>>>, rows: seq<CategoryRow>)
    requires bs == ByTotalDesc(CategoryEntries(cats, es, w))
    requires |rows| == |bs|
    requires forall i :: 0 <= i < |bs| ==> rows[i] == DescribeGroup(cats, bs[i].key, bs[i].total)
    ensures forall i, j :: 0 <= i < j < |rows| ==> rows[i].total >= rows[j].total
    ensures forall i, j :: 0 <= i < j < |rows| ==> rows[i].id != rows[j].id
    ensures forall k :: k in CategoriesWithData(cats, es, w) <==> exists i :: 0 <= i < |rows| && rows[i].id == k
    ensures forall i :: 0 <= i < |rows| ==>
      rows[i] == DescribeGroup(cats, rows[i].id, CategorySum(cats, es, w, rows[i].id))
    ensures RowsTotal(rows) == WindowTotal(es, w)
  {
    CategoryEntriesFacts(cats, es, w);
    forall i | 0 <= i < |bs| ensures rows[i].id == bs[i].key && rows[i].total == bs[i].total {
      DescribeGroupFields(cats, bs[i].key, bs[i].total);
    }
    DescribedTotal(cats, bs, rows);
    forall i | 0 <= i < |rows|
      ensures rows[i] == DescribeGroup(cats, rows[i].id, CategorySum(cats, es, w, rows[i].id))
    {
      assert bs[i].total == SumFor(CategoryEntries(cats, es, w), bs[i].key);
    }
    forall k | k in CategoriesWithData(cats, es, w) ensures exists i :: 0 <= i < |rows| && rows[i].id == k {
      assert k in BucketKeys(bs);
      var i :| 0 <= i < |bs| && bs[i].key == k;
      assert rows[i].id == k;
    }
    forall i | 0 <= i < |rows| ensures rows[i].id in CategoriesWithData(cats, es, w) {
      assert bs[i].key in BucketKeys(bs);
    }
  }

  lemma DescribeGroupFields(cats: seq<Category>, k: Option<int>, total: int)
    ensures DescribeGroup(cats, k, total).id == k && DescribeGroup(cats, k, total).total == total
  {
  }

  /** A `GET expenses` row: the expense with its joined category name and color. */
  datatype ExpenseRow = ExpenseRow(expense: Expense, categoryName: Option<string>, categoryColor: Option<string>)

  function JoinRow(cats: seq<Category>, e: Expense): ExpenseRow {
    match (if e.categoryId.Some? then FindCategory(cats, e.categoryId.value) else None)
    case Some(c) => ExpenseRow(e, Some(c.name), c.color)
    case None => ExpenseRow(e, None, None)
  }

  /** `ORDER BY occurred_at DESC, id DESC`: `a` may be listed before `b`. */
  predicate NewerOrSame(a: ExpenseRow, b: ExpenseRow) {
    || a.expense.occurredAt > b.expense.occurredAt
    || (a.expense.occurredAt == b.expense.occurredAt && a.expense.id >= b.expense.id)
  }

  lemma NewerOrSameIsPreorder()
    ensures TotalPreorder(NewerOrSame)
  {
  }

  /** The joined rows of the window's expenses, in store order. */
  function WindowRows(cats: seq<Category>, es: seq<Expense>, w: Window): (r: seq<ExpenseRow>)
    ensures forall row :: row in r <==> exists e :: e in es && InWindow(w, e.occurredAt) && row == JoinRow(cats, e)
  {
    if |es| == 0 then []
    else
      var rest := WindowRows(cats, es[1..], w);
      assert es == [es[0]] + es[1..];
      if InWindow(w, es[0].occurredAt) then [JoinRow(cats, es[0])] + rest else rest
  }

  /** `GET expenses`: the expenses of the window with their joined category
      name and color (uncategorized ones kept, with NULLs), newest first and,
      among equal instants, highest id first. */
  function ListExpenses(st: Store, w: Window): (rows: seq<ExpenseRow>)
    ensures SortedBy(rows, NewerOrSame)
    ensures forall row :: row in rows <==>
      exists e :: e in st.expenses && InWindow(w, e.occurredAt) && row == JoinRow(st.categories, e)
    ensures multiset(rows) == multiset(WindowRows(st.categories, st.expenses, w))
  {
    NewerOrSameIsPreorder();
    var all := WindowRows(st.categories, st.expenses, w);
    var rows := SortBy(all, NewerOrSame);
    forall row ensures row in rows <==> row in all {
      assert row in rows <==> row in multiset(rows);
    }
    rows
  }

  /** The inclusive window `BETWEEN start AND end` of a month. */
  function MonthWindow(ym: YearMonth): Window {
    Window(Some(MonthStart(ym)), Some(MonthEnd(ym)))
  }

  /** The payload of `GET summary/monthly`. */
  datatype Monthly = Monthly(
    month: YearMonth,
    daily: seq<Bucket<int>>,
    categories: seq<CategoryRow>,
    total: int,
    averagePerDay: real,
    daysWithData: int)

  /** The monthly rollup of month `ym`: the daily and category summaries over
      the month, the month's total (0 when it has no expense), the average
      over every day of the month, and the count of distinct days with an
      expense. */
  function MonthlyRollup(st: Store, ym: YearMonth): Monthly {
    var w := MonthWindow(ym);
    var total := WindowTotal(st.expenses, w);
    Monthly(ym, DailyTotals(st.expenses, w), CategoryTotals(st.categories, st.expenses, w),
            total, Average(total, DaysInMonth(ym.year, ym.month)), DistinctDays(st.expenses, w))
  }

  /** The three sums of the rollup agree, because the three queries share
      one window; `days_with_data` is the length of `daily`; every reported
      day lies in the month; and the average times the month's length gives
      back the total. */
  lemma MonthlyRollupFacts(st: Store, ym: YearMonth)
    ensures var m := MonthlyRollup(st, ym);
      && m.month == ym
      && m.total == WindowTotal(st.expenses, MonthWindow(ym))
      && BucketsTotal(m.daily) == m.total
      && RowsTotal(m.categories) == m.total
      && m.daysWithData == |m.daily| == |DaysWithData(st.expenses, MonthWindow(ym))|
      && AverageOf(m.averagePerDay, m.total, DaysInMonth(ym.year, ym.month))
      && (forall i :: 0 <= i < |m.daily| ==> FirstDay(ym) <= m.daily[i].key <= LastDay(ym))
  {
    MonthlyDaysInMonth(st.expenses, ym, DailyTotals(st.expenses, MonthWindow(ym)));
  }

  /** `a` spread over `days` days gives back `total`. */
  predicate AverageOf(a: real, total: int, days: int) {
    a * (days as real) == total as real
  }

  /** `total / daysInMonth` on JavaScript numbers, taken as exact division. */
  function Average(total: int, days: int): (a: real)
    requires days > 0
    ensures AverageOf(a, total, days)
  {
    total as real / days as real
  }

  /** `COUNT(DISTINCT date_trunc('day', occurred_at))` over the window. */
  function DistinctDays(es: seq<Expense>, w: Window): (n: int)
    ensures n == |DaysWithData(es, w)|
  {
    DayEntriesFacts(es, w);
    |SortedKeys(DayEntries(es, w))|
  }

  /** Every day the month's daily summary reports lies in the month. */
  lemma MonthlyDaysInMonth(es: seq<Expense>, ym: YearMonth, daily: seq<Bucket<int>>)
    requires daily == DailyTotals(es, MonthWindow(ym))
    ensures forall i :: 0 <= i < |daily| ==> FirstDay(ym) <= daily[i].key <= LastDay(ym)
  {
    forall i | 0 <= i < |daily| ensures FirstDay(ym) <= daily[i].key <= LastDay(ym) {
      assert daily[i].key in BucketKeys(daily);
      var e :| e in es && InWindow(MonthWindow(ym), e.occurredAt) && DayOf(e.occurredAt) == daily[i].key;
      MonthWindowDays(ym, e.occurredAt);
    }
  }
}

=== FILE: results.dfy ===
/** Failure-carrying wrappers used across the model: an optional value and a
    success-or-error result (the handlers' early `badRequest` exits and the
    store's rejections become `Err`). */
module Results {

  /** A value that may be absent: SQL NULL, a missing request field. */
  datatype Option<+T> = None | Some(value: T) {

    /** The value, or `default` when absent. */
    function GetOr(default: T): T {
      match this
      case Some(v) => v
      case None => default
    }
  }

  /** Either the value an operation produced or the error that stopped it. */
  datatype Result<+T, +E> = Ok(value: T) | Err(error: E)
}

=== FILE: sorting.dfy ===
/** Ordering for the `ORDER BY` clauses: a stable insertion sort over any
    total preorder, with the facts about permutations the reports need. */
module Sorting {

  /** Any two elements are comparable. */
  ghost predicate TotalRel<T(!new)>(le: (T, T) -> bool) {
    forall a, b :: le(a, b) || le(b, a)
  }

  ghost predicate TransitiveRel<T(!new)>(le: (T, T) -> bool) {
    forall a, b, c :: le(a, b) && le(b, c) ==> le(a, c)
  }

  /** `le` is a total preorder: the shape of an `ORDER BY` on a key. */
  ghost predicate TotalPreorder<T(!new)>(le: (T, T) -> bool) {
    TotalRel(le) && TransitiveRel(le)
  }

  /** Every element comes `le`-before every later one. */
  predicate SortedBy<T>(s: seq<T>, le: (T, T) -> bool) {
    forall i, j :: 0 <= i < j < |s| ==> le(s[i], s[j])
  }

  /** No element occurs twice. */
  predicate Distinct<T(==)>(s: seq<T>) {
    forall i, j :: 0 <= i < j < |s| ==> s[i] != s[j]
  }

  /** `x` placed into the sorted `s`, before the first element it may precede. */
  function Insert<T(!new)>(x: T, s: seq<T>, le: (T, T) -> bool): (r: seq<T>)
    requires TotalPreorder(le)
    requires SortedBy(s, le)
    ensures SortedBy(r, le)
    ensures multiset(r) == multiset(s) + multiset{x}
    decreases |s|
  {
    if |s| == 0 then [x]
    else if le(x, s[0]) then
      InsertFront(x, s, le);
      [x] + s
    else
      var rest := Insert(x, s[1..], le);
      InsertBehind(x, s, rest, le);
      [s[0]] + rest
  }

  lemma InsertFront<T(!new)>(x: T, s: seq<T>, le: (T, T) -> bool)
    requires TotalPreorder(le)
    requires SortedBy(s, le) && |s| > 0 && le(x, s[0])
    ensures SortedBy([x] + s, le)
    ensures multiset([x] + s) == multiset(s) + multiset{x}
  {
    var r := [x] + s;
    forall i, j | 0 <= i < j < |r| ensures le(r[i], r[j]) {
      if i == 0 && j > 1 {
        assert le(s[0], s[j - 1]);
      }
    }
  }

  lemma InsertBehind<T(!new)>(x: T, s: seq<T>, rest: seq<T>, le: (T, T) -> bool)
    requires TotalPreorder(le)
    requires SortedBy(s, le) && |s| > 0 && !le(x, s[0])
    requires SortedBy(rest, le)
    requires multiset(rest) == multiset(s[1..]) + multiset{x}
    ensures SortedBy([s[0]] + rest, le)
    ensures multiset([s[0]] + rest) == multiset(s) + multiset{x}
  {
    assert s == [s[0]] + s[1..];
    var r := [s[0]] + rest;
    forall j | 1 <= j < |r| ensures le(r[0], r[j]) {
      assert rest[j - 1] in multiset(rest);
      if rest[j - 1] != x {
        assert rest[j - 1] in multiset(s[1..]);
        var k :| 0 <= k < |s[1..]| && s[1..][k] == rest[j - 1];
        assert le(s[0], s[k + 1]);
      }
    }
  }

  /** `xs` rearranged into `le` order, keeping every element as often as it occurs. */
  function SortBy<T(!new)>(xs: seq<T>, le: (T, T) -> bool): (r: seq<T>)
    requires TotalPreorder(le)
    ensures SortedBy(r, le)
    ensures multiset(r) == multiset(xs)
    ensures |r| == |xs|
  {
    if |xs| == 0 then []
    else
      assert xs == [xs[0]] + xs[1..];
      Insert(xs[0], SortBy(xs[1..], le), le)
  }

  /** A duplicate-free sequence holds each element at most once. */
  lemma {:induction false} DistinctCount<T>(s: seq<T>, x: T)
    requires Distinct(s)
    ensures multiset(s)[x] <= 1
  {
    if |s| > 0 {
      assert s == [s[0]] + s[1..];
      assert Distinct(s[1..]);
      DistinctCount(s[1..], x);
      if x == s[0] {
        assert x !in s[1..];
      }
    }
  }

  /** Rearranging a duplicate-free sequence leaves it duplicate-free. */
  lemma DistinctPermutation<T>(s: seq<T>, t: seq<T>)
    requires Distinct(s) && multiset(s) == multiset(t)
    ensures Distinct(t)
  {
    forall i, j | 0 <= i < j < |t| ensures t[i] != t[j] {
      if t[i] == t[j] {
        assert t == t[..j] + t[j..];
        assert multiset(t) == multiset(t[..j]) + multiset(t[j..]);
        assert t[i] in t[..j] && t[j] in t[j..];
        DistinctCount(s, t[i]);
        assert false;
      }
    }
  }
}

=== FILE: text.dfy ===
/** String helpers the request handlers rely on: the two `trim` functions
    (ECMAScript's `String.prototype.trim` and PHP's `trim`), PHP's notion of a
    falsy string, substring containment (the `LIKE '%…%'` search) and the
    code-point order used for `ORDER BY name`. */
module Text {
  import opened Sorting

  /** ECMAScript WhiteSpace and LineTerminator code points: what
      `String.prototype.trim` strips. */
  predicate IsJsSpace(c: char) {
    || c == '\t' || c == '\n' || c == '\U{B}' || c == '\U{C}' || c == '\r'
    || c == ' ' || c == '\U{A0}' || c == '\U{1680}'
    || ('\U{2000}' <= c <= '\U{200A}')
    || c == '\U{2028}' || c == '\U{2029}' || c == '\U{202F}' || c == '\U{205F}'
    || c == '\U{3000}' || c == '\U{FEFF}'
  }

  /** The characters PHP's `trim` strips when given no character list. */
  predicate IsPhpSpace(c: char) {
    c == ' ' || c == '\t' || c == '\n' || c == '\r' || c == '\0' || c == '\U{B}'
  }

  /** Every character of `s` at an index in [lo, hi) is a space in the sense of `sp`. */
  predicate SpaceBetween(s: string, lo: int, hi: int, sp: char -> bool) {
    forall k :: lo <= k < hi && 0 <= k < |s| ==> sp(s[k])
  }

  /** Every character of `s` is a space. */
  predicate AllSpace(s: string, sp: char -> bool) {
    SpaceBetween(s, 0, |s|, sp)
  }

  /** `s` with its leading spaces removed. */
  function TrimStart(s: string, sp: char -> bool): (r: string)
    ensures |r| <= |s| && r == s[|s| - |r|..]
    ensures SpaceBetween(s, 0, |s| - |r|, sp)
    ensures |r| > 0 ==> !sp(r[0])
    decreases |s|
  {
    if |s| > 0 && sp(s[0]) then TrimStart(s[1..], sp) else s
  }

  /** `s` with its trailing spaces removed. */
  function TrimEnd(s: string, sp: char -> bool): (r: string)
    ensures |r| <= |s| && r == s[..|r|]
    ensures SpaceBetween(s, |r|, |s|, sp)
    ensures |r| > 0 ==> !sp(r[|r| - 1])
    decreases |s|
  {
    if |s| > 0 && sp(s[|s| - 1]) then TrimEnd(s[..|s| - 1], sp) else s
  }

  /** `s` = spaces ++ `r` ++ spaces, with `r` starting at index `i`. */
  predicate SpacesAround(s: string, i: int, r: string, sp: char -> bool) {
    && 0 <= i <= |s| - |r|
    && s[i..i + |r|] == r
    && SpaceBetween(s, 0, i, sp)
    && SpaceBetween(s, i + |r|, |s|, sp)
  }

  /** `s` with leading and trailing spaces removed: the longest infix of `s`
      that neither starts nor ends with a space, everything cut off being
      space. A string made only of spaces trims to the empty string. */
  function Trim(s: string, sp: char -> bool): (r: string)
    ensures exists i :: SpacesAround(s, i, r, sp)
    ensures |r| > 0 ==> !sp(r[0]) && !sp(r[|r| - 1])
    ensures r == [] <==> AllSpace(s, sp)
  {
    var a := TrimStart(s, sp);
    var r := TrimEnd(a, sp);
    TrimFacts(s, sp, a, r);
    r
  }

  lemma TrimFacts(s: string, sp: char -> bool, a: string, r: string)
    requires a == TrimStart(s, sp) && r == TrimEnd(a, sp)
    ensures SpacesAround(s, |s| - |a|, r, sp)
    ensures |r| > 0 ==> !sp(r[0]) && !sp(r[|r| - 1])
    ensures r == [] <==> AllSpace(s, sp)
  {
    var i := |s| - |a|;
    assert a == s[i..];
    assert r == a[..|r|];
    assert SpaceBetween(s, 0, i, sp);
    assert SpaceBetween(a, |r|, |a|, sp);
    assert s[i..i + |r|] == r;
    forall k | i + |r| <= k < |s| ensures sp(s[k]) {
      assert s[k] == a[k - i];
    }
    if r != [] {
      assert r[0] == a[0];
      assert s[i] == r[0] && !sp(s[i]);
    }
  }

  /** Trimming is idempotent: a trimmed string has nothing left to strip. */
  lemma TrimIdempotent(s: string, sp: char -> bool)
    ensures Trim(Trim(s, sp), sp) == Trim(s, sp)
  {
    var r := Trim(s, sp);
    assert TrimStart(r, sp) == r;
    assert TrimEnd(r, sp) == r;
  }

  /** PHP's falsy strings: the empty string and "0". */
  predicate PhpFalsy(s: string) {
    s == "" || s == "0"
  }

  /** `needle` occurs in `hay` starting at index `i`. */
  predicate OccursAt(hay: string, needle: string, i: int) {
    0 <= i <= |hay| - |needle| && hay[i..i + |needle|] == needle
  }

  /** Substring containment: `hay LIKE '%' || needle || '%'` with no
      wildcard characters inside `needle`. */
  predicate Contains(hay: string, needle: string) {
    exists i :: 0 <= i <= |hay| - |needle| && OccursAt(hay, needle, i)
  }

  /** Every string contains the empty string. */
  lemma ContainsEmpty(hay: string)
    ensures Contains(hay, "")
  {
    assert OccursAt(hay, "", 0);
  }

  /** Lexicographic order on code points (a prefix sorts first). */
  predicate StrLe(a: string, b: string)
    decreases |a|
  {
    |a| == 0 || (|b| > 0 && (a[0] < b[0] || (a[0] == b[0] && StrLe(a[1..], b[1..]))))
  }

  lemma {:induction false} StrLeTotal(a: string, b: string)
    ensures StrLe(a, b) || StrLe(b, a)
    decreases |a|
  {
    if |a| > 0 && |b| > 0 && a[0] == b[0] {
      StrLeTotal(a[1..], b[1..]);
    }
  }

  lemma {:induction false} StrLeTransitive(a: string, b: string, c: string)
    requires StrLe(a, b) && StrLe(b, c)
    ensures StrLe(a, c)
    decreases |a|
  {
    if |a| > 0 && a[0] == b[0] && b[0] == c[0] {
      StrLeTransitive(a[1..], b[1..], c[1..]);
    }
  }

  lemma {:induction false} StrLeAntisymmetric(a: string, b: string)
    requires StrLe(a, b) && StrLe(b, a)
    ensures a == b
    decreases |a|
  {
    if |a| > 0 {
      StrLeAntisymmetric(a[1..], b[1..]);
      assert a == [a[0]] + a[1..];
      assert b == [b[0]] + b[1..];
    }
  }

  /** Comparing records by a text field (`ORDER BY name`) is a total
      preorder, whatever the record. */
  lemma KeyOrderIsPreorder<T(!new)>(le: (T, T) -> bool, key: T -> string)
    requires forall a, b :: le(a, b) == StrLe(key(a), key(b))
    ensures TotalPreorder(le)
  {
    forall a, b ensures le(a, b) || le(b, a) {
      StrLeTotal(key(a), key(b));
    }
    forall a, b, c | le(a, b) && le(b, c) ensures le(a, c) {
      StrLeTransitive(key(a), key(b), key(c));
    }
  }
}

=== FILE: transactions_page.dfy ===
/** `transactions.php`: the quick "add category" form, the transaction form
    (insert or update), the delete button, the edit lookup and the filtered
    listing, all scoped to the signed-in user. Date text is read by the
    parameter `parseDate`, standing for `validate_date` followed by the
    date's day number; `today` is the day `date('Y-m-d')` names. */
module TransactionsPage {
  import opened Results
  import opened Text
  import opened Sorting
  import opened Params
  import opened Books

  const QuickCategoryInvalid := "Nama kategori dan tipe wajib diisi."
  const DateInvalid := "Tanggal tidak valid."
  const TypeInvalid := "Tipe transaksi harus income atau expense."
  const CategoryMissing := "Kategori wajib dipilih."
  const AmountNotPositive := "Nominal harus lebih dari 0."

  const CategoryAdded := "Kategori berhasil ditambahkan."
  const TransactionUpdated := "Transaksi berhasil diperbarui."
  const TransactionAdded := "Transaksi berhasil ditambahkan."
  const TransactionDeleted := "Transaksi berhasil dihapus."
  const TransactionNotFound := "Data transaksi tidak ditemukan."

  /** The four transaction-form checks' messages, in the order they run. */
  const FormChecks := [DateInvalid, TypeInvalid, CategoryMissing, AmountNotPositive]

  /** The quick-add category fields (`category_name`, `category_type`). */
  datatype QuickForm = QuickForm(name: Option<string>, kind: Option<string>)

  /** The transaction form's fields. */
  datatype TxForm = TxForm(
    date: Option<string>,
    kind: Option<string>,
    categoryId: IdParam,
    amount: NumParam,
    note: Option<string>,
    transactionId: IdParam)

  /** The form's date: `$_POST['date'] ?? date('Y-m-d')`, read as a day. */
  function FormDate(f: TxForm, parseDate: string -> Option<int>, today: int): Option<int> {
    if f.date.None? then Some(today) else parseDate(f.date.value)
  }

  /** The values the form would write, when every check passes: the form's
      day, its type word, its category id, the amount as PHP casts it and
      the note without surrounding spaces. */
  function Accepted(f: TxForm, parseDate: string -> Option<int>, today: int): (r: Option<TxFields>)
    ensures r.Some? ==> FormDate(f, parseDate, today) == Some(r.value.date)
    ensures r.Some? ==> f.kind == Some(TypeName(r.value.kind))
    ensures r.Some? ==> f.categoryId == Id(r.value.categoryId) && r.value.categoryId != 0
    ensures r.Some? ==> r.value.amount == PhpNumber(f.amount) && r.value.amount > 0
    ensures r.Some? ==> r.value.note == Trim(f.note.GetOr(""), IsPhpSpace)
  {
    var date := FormDate(f, parseDate, today);
    var kind := ParseType(f.kind.GetOr(""));
    if date.Some? && kind.Some? && IdTruthy(f.categoryId) && PhpNumber(f.amount) > 0 then
      assert f.kind == Some(TypeName(kind.value)) by {
        assert f.kind.GetOr("") == TypeName(kind.value);
        assert TypeName(kind.value) != "";
      }
      Some(TxFields(f.categoryId.n, date.value, kind.value, PhpNumber(f.amount), Trim(f.note.GetOr(""), IsPhpSpace)))
    else None
  }

  /** Where `m` stands among the form's checks. */
  function CheckRank(m: string): int {
    if m == DateInvalid then 0
    else if m == TypeInvalid then 1
    else if m == CategoryMissing then 2
    else 3
  }

  /** Whether the check whose message is `m` fails on the form. */
  predicate Fails(f: TxForm, parseDate: string -> Option<int>, today: int, m: string) {
    if m == DateInvalid then FormDate(f, parseDate, today).None?
    else if m == TypeInvalid then !(f.kind == Some("income") || f.kind == Some("expense"))
    else if m == CategoryMissing then !IdTruthy(f.categoryId)
    else PhpNumber(f.amount) <= 0
  }

  /** The transaction form's checks: every failing check adds its message,
      in the order the checks run. */
  function ValidateTransaction(f: TxForm, parseDate: string -> Option<int>, today: int): (errs: seq<string>)
    ensures DateInvalid in errs <==> FormDate(f, parseDate, today).None?
    ensures TypeInvalid in errs <==> !(f.kind == Some("income") || f.kind == Some("expense"))
    ensures CategoryMissing in errs <==> !IdTruthy(f.categoryId)
    ensures AmountNotPositive in errs <==> PhpNumber(f.amount) <= 0
    ensures forall m :: m in errs ==> m in FormChecks
    ensures forall i, j :: 0 <= i < j < |errs| ==> CheckRank(errs[i]) < CheckRank(errs[j])
  {
    FormChecksRanked();
    var failing := (m: string) => Fails(f, parseDate, today, m);
    FilterRanked(FormChecks, failing);
    Filter(FormChecks, failing)
  }

  /** The messages of `s` appear in check order. */
  predicate Ranked(s: seq<string>) {
    forall i, j :: 0 <= i < j < |s| ==> CheckRank(s[i]) < CheckRank(s[j])
  }

  /** Dropping messages keeps the rest in check order. */
  lemma {:induction false} FilterRanked(s: seq<string>, p: string -> bool)
    requires Ranked(s)
    ensures Ranked(Filter(s, p))
  {
    if |s| > 0 {
      var rest := Filter(s[1..], p);
      assert Ranked(s[1..]) by {
        forall i, j | 0 <= i < j < |s[1..]| ensures CheckRank(s[1..][i]) < CheckRank(s[1..][j]) {
          assert s[1..][i] == s[i + 1] && s[1..][j] == s[j + 1];
        }
      }
      FilterRanked(s[1..], p);
      if p(s[0]) {
        forall i, j | 0 <= i < j < |[s[0]] + rest| ensures CheckRank(([s[0]] + rest)[i]) < CheckRank(([s[0]] + rest)[j]) {
          if i == 0 {
            var y := rest[j - 1];
            assert y in s[1..];
            var k :| 0 <= k < |s[1..]| && s[1..][k] == y;
            assert s[k + 1] == y;
          } else {
            assert ([s[0]] + rest)[i] == rest[i - 1] && ([s[0]] + rest)[j] == rest[j - 1];
          }
        }
      }
    }
  }

  /** The four messages are distinct, ranked in check order. */
  lemma FormChecksRanked()
    ensures CheckRank(DateInvalid) == 0 && CheckRank(TypeInvalid) == 1
    ensures CheckRank(CategoryMissing) == 2 && CheckRank(AmountNotPositive) == 3
  {
    assert TypeInvalid[1] != DateInvalid[1];
    assert CategoryMissing[0] != DateInvalid[0] && CategoryMissing[0] != TypeInvalid[0];
    assert AmountNotPositive[0] != DateInvalid[0] && AmountNotPositive[0] != TypeInvalid[0];
    assert AmountNotPositive[0] != CategoryMissing[0];
  }

  /** The form raises no error exactly when it yields values to write. */
  lemma ValidationMatchesAccepted(f: TxForm, parseDate: string -> Option<int>, today: int)
    ensures ValidateTransaction(f, parseDate, today) == [] <==> Accepted(f, parseDate, today).Some?
  {
    var errs := ValidateTransaction(f, parseDate, today);
    assert ParseType(f.kind.GetOr("")).Some? <==> f.kind == Some("income") || f.kind == Some("expense") by {
      assert "" != "income" && "" != "expense";
    }
    var anyFails := DateInvalid in errs || TypeInvalid in errs || CategoryMissing in errs || AmountNotPositive in errs;
    assert errs != [] ==> anyFails by {
      if errs != [] {
        assert errs[0] in FormChecks;
      }
    }
    assert anyFails ==> errs != [];
  }

  /** A POST (or GET) to the page: which forms were submitted and the
      `delete_id` field (`Missing` when not sent). PHP fills `$_POST` only
      for a POST, so a GET never carries `delete_id`. */
  datatype TxRequest = TxRequest(isPost: bool, quick: Option<QuickForm>, form: Option<TxForm>, deleteId: IdParam)

  /** How the request ends: a redirect after a write, or the page shown
      with the collected errors and the books as they were. */
  datatype Outcome = Redirected(books: Books, message: string) | Shown(books: Books, errors: seq<string>)

  /** The page's POST handling, in source order: the quick-add form (a
      success redirects at once; a failure leaves an error), then the
      transaction form (written only when no error at all was collected,
      updating when `transaction_id` is truthy and inserting otherwise),
      then `delete_id`, which is honoured even when errors were collected.
      The `delete_id` check sits outside the POST branch, but `$_POST` holds
      it only on a POST. */
  function HandleTransactions(bk: Books, uid: int, req: TxRequest, parseDate: string -> Option<int>, today: int): (r: Outcome)
    requires req.isPost || req.deleteId.Missing?
    ensures r.Shown? ==> r.books == bk
    ensures r.Shown? ==> (r.errors == [] <==> !req.isPost || (req.quick.None? && req.form.None?))
    ensures r.Shown? && req.isPost && req.quick.Some? ==>
      CategoryInput(req.quick.value.name, req.quick.value.kind).None? && r.errors[0] == QuickCategoryInvalid
    ensures r.Shown? && req.isPost && req.form.Some? ==>
      forall m :: m in ValidateTransaction(req.form.value, parseDate, today) ==> m in r.errors
    ensures !req.deleteId.Missing? ==> r.Redirected?
    ensures r.Shown? && req.isPost ==>
      r.errors == (if req.quick.Some? then [QuickCategoryInvalid] else [])
        + (if req.form.Some? then ValidateTransaction(req.form.value, parseDate, today) else [])
    ensures r.Redirected? ==>
      r.message in {CategoryAdded, TransactionAdded, TransactionUpdated, TransactionDeleted}
    ensures req.isPost && req.quick.Some? && CategoryInput(req.quick.value.name, req.quick.value.kind).Some? ==>
      r.Redirected? && r.message == CategoryAdded
    ensures req.isPost && req.quick.None? && req.form.Some? && ValidateTransaction(req.form.value, parseDate, today) == [] ==>
      r.Redirected? && r.message == (if IdTruthy(req.form.value.transactionId) then TransactionUpdated else TransactionAdded)
    ensures && !req.deleteId.Missing?
            && (req.quick.Some? ==> CategoryInput(req.quick.value.name, req.quick.value.kind).None?)
            && (req.quick.None? && req.form.Some? ==> ValidateTransaction(req.form.value, parseDate, today) != [])
      ==> r == Redirected(DeleteTransaction(bk, uid, req.deleteId), TransactionDeleted)
    ensures r.Redirected? && r.message == CategoryAdded ==>
      && req.isPost && req.quick.Some? && CategoryInput(req.quick.value.name, req.quick.value.kind).Some?
      && var (name, kind) := CategoryInput(req.quick.value.name, req.quick.value.kind).value;
         r.books == AddCategory(bk, uid, name, kind).0
    ensures r.Redirected? && (r.message == TransactionAdded || r.message == TransactionUpdated) ==>
      && req.isPost && req.quick.None? && req.form.Some?
      && ValidateTransaction(req.form.value, parseDate, today) == []
    ensures r.Redirected? && r.message == TransactionAdded ==>
      && Accepted(req.form.value, parseDate, today).Some?
      && r.books == AddTransaction(bk, uid, Accepted(req.form.value, parseDate, today).value).0
      && r.books.categories == bk.categories
      && |r.books.transactions| == |bk.transactions| + 1
      && r.books.transactions[..|bk.transactions|] == bk.transactions
      && var t := r.books.transactions[|bk.transactions|];
         t.userId == uid && t == Rewrite(t, Accepted(req.form.value, parseDate, today).value)
    ensures r.Redirected? && r.message == TransactionUpdated ==>
      && IdTruthy(req.form.value.transactionId)
      && Accepted(req.form.value, parseDate, today).Some?
      && r.books == UpdateTransaction(bk, uid, req.form.value.transactionId.n, Accepted(req.form.value, parseDate, today).value)
    ensures r.Redirected? && r.message == TransactionDeleted ==>
      !req.deleteId.Missing? && r.books == DeleteTransaction(bk, uid, req.deleteId)
  {
    var quick: Result<(string, TxType), seq<string>> :=
      if req.isPost && req.quick.Some? then
        match CategoryInput(req.quick.value.name, req.quick.value.kind)
        case Some(v) => Ok(v)
        case None => Err([QuickCategoryInvalid])
      else Err([]);
    if quick.Ok? then
      Redirected(AddCategory(bk, uid, quick.value.0, quick.value.1).0, CategoryAdded)
    else
      var errs := quick.error + (if req.isPost && req.form.Some? then ValidateTransaction(req.form.value, parseDate, today) else []);
      if req.isPost && req.form.Some? && errs == [] then
        ValidationMatchesAccepted(req.form.value, parseDate, today);
        var fields := Accepted(req.form.value, parseDate, today).value;
        if IdTruthy(req.form.value.transactionId) then
          Redirected(UpdateTransaction(bk, uid, req.form.value.transactionId.n, fields), TransactionUpdated)
        else
          Redirected(AddTransaction(bk, uid, fields).0, TransactionAdded)
      else if !req.deleteId.Missing? then
        Redirected(DeleteTransaction(bk, uid, req.deleteId), TransactionDeleted)
      else
        Shown(bk, errs)
  }

  /** `?edit=`: when the parameter is present at all, the user's row with
      that id, or the "not found" redirect. */
  function EditTransaction(bk: Books, uid: int, edit: IdParam): (r: Edit<Transaction>)
    ensures r.NotEditing? <==> edit.Missing?
    ensures r.Editing? ==> r.row in bk.transactions && r.row.userId == uid && edit == Id(r.row.id)
    ensures r.EditMissing? <==>
      !edit.Missing? && forall t :: t in bk.transactions ==> !(edit == Id(t.id) && t.userId == uid)
    ensures r.EditMissing? ==> r.redirect == Redirect("transactions.php", TransactionNotFound, "danger")
  {
    if edit.Missing? then NotEditing
    else match FindTransaction(bk, uid, edit)
      case Some(t) => Editing(t)
      case None => EditMissing(Redirect("transactions.php", TransactionNotFound, "danger"))
  }

  /** The listing's query-string filters. */
  datatype TxFilter = TxFilter(
    search: Option<string>,
    kind: Option<string>,
    category: IdParam,
    start: Option<string>,
    end: Option<string>)

  /** The date bound a `start_date`/`end_date` value imposes: only a truthy,
      valid date counts. */
  function DateBound(q: Option<string>, parseDate: string -> Option<int>): Option<int> {
    if TextTruthy(q) then parseDate(q.value) else None
  }

  /** The listing's `WHERE`: the user's rows; the note contains the trimmed
      search when it is not empty; the type when it is one of the two; the
      category id when it is truthy; the dates between the valid bounds. */
  predicate Selected(t: Transaction, uid: int, f: TxFilter, parseDate: string -> Option<int>) {
    var search := Trim(f.search.GetOr(""), IsPhpSpace);
    var kind := ParseType(f.kind.GetOr(""));
    var lo := DateBound(f.start, parseDate);
    var hi := DateBound(f.end, parseDate);
    && t.userId == uid
    && (search == "" || Contains(t.note, search))
    && (kind.None? || t.kind == kind.value)
    && (!IdTruthy(f.category) || t.categoryId == Some(f.category.n))
    && (lo.None? || lo.value <= t.date)
    && (hi.None? || t.date <= hi.value)
  }

  /** The joined rows of the selected transactions, in table order. */
  function SelectedRows(bk: Books, uid: int, f: TxFilter, parseDate: string -> Option<int>): seq<TxRow> {
    var picked := Filter(bk.transactions, (t: Transaction) => Selected(t, uid, f, parseDate));
    seq(|picked|, i requires 0 <= i < |picked| => JoinRow(bk, picked[i]))
  }

  /** The transaction listing: the selected rows of the signed-in user,
      newest date first and highest id first within a date. */
  function ListTransactions(bk: Books, uid: int, f: TxFilter, parseDate: string -> Option<int>): (rows: seq<TxRow>)
    ensures SortedBy(rows, NewerFirst)
    ensures forall row :: row in rows <==>
      exists t :: t in bk.transactions && Selected(t, uid, f, parseDate) && row == JoinRow(bk, t)
    ensures forall row :: row in rows ==> row.tx.userId == uid
    ensures multiset(rows) == multiset(SelectedRows(bk, uid, f, parseDate))
  {
    NewerFirstIsPreorder();
    var all := SelectedRows(bk, uid, f, parseDate);
    var rows := SortBy(all, NewerFirst);
    SortedSameElements(all, rows);
    SelectedRowsMembers(bk, uid, f, parseDate);
    rows
  }

  lemma SelectedRowsMembers(bk: Books, uid: int, f: TxFilter, parseDate: string -> Option<int>)
    ensures forall row :: row in SelectedRows(bk, uid, f, parseDate) <==>
      exists t :: t in bk.transactions && Selected(t, uid, f, parseDate) && row == JoinRow(bk, t)
  {
    var picked := Filter(bk.transactions, (t: Transaction) => Selected(t, uid, f, parseDate));
    var all := SelectedRows(bk, uid, f, parseDate);
    forall row ensures row in all <==>
      exists t :: t in bk.transactions && Selected(t, uid, f, parseDate) && row == JoinRow(bk, t)
    {
      if row in all {
        var i :| 0 <= i < |all| && all[i] == row;
        assert picked[i] in picked;
      }
      if exists t :: t in bk.transactions && Selected(t, uid, f, parseDate) && row == JoinRow(bk, t) {
        var t :| t in bk.transactions && Selected(t, uid, f, parseDate) && row == JoinRow(bk, t);
        assert t in picked;
        var i :| 0 <= i < |picked| && picked[i] == t;
        assert all[i] == row;
      }
    }
  }

  /** Two filters that select the same transactions list the same rows. */
  lemma SameSelectionSameListing(bk: Books, uid: int, f: TxFilter, g: TxFilter, parseDate: string -> Option<int>)
    requires forall t :: Selected(t, uid, f, parseDate) == Selected(t, uid, g, parseDate)
    ensures ListTransactions(bk, uid, f, parseDate) == ListTransactions(bk, uid, g, parseDate)
  {
    FilterSame(bk.transactions, (t: Transaction) => Selected(t, uid, f, parseDate),
               (t: Transaction) => Selected(t, uid, g, parseDate));
  }

  /** A type filter other than the two types, a blank search and a date
      that does not parse are ignored. */
  lemma IgnoredFilters(bk: Books, uid: int, f: TxFilter, parseDate: string -> Option<int>, junk: string)
    requires ParseType(junk).None?
    requires f.search.Some? ==> AllSpace(f.search.value, IsPhpSpace)
    requires f.start.Some? ==> parseDate(f.start.value).None?
    requires f.end.Some? ==> parseDate(f.end.value).None?
    ensures ListTransactions(bk, uid, f.(kind := Some(junk)), parseDate)
         == ListTransactions(bk, uid, TxFilter(None, None, f.category, None, None), parseDate)
  {
    SameSelectionSameListing(bk, uid, f.(kind := Some(junk)), TxFilter(None, None, f.category, None, None), parseDate);
  }

  /** With no filter the listing holds every transaction of the user, and
      only those. */
  lemma UnfilteredListing(bk: Books, uid: int, parseDate: string -> Option<int>)
    ensures forall row :: row in ListTransactions(bk, uid, TxFilter(None, None, Missing, None, None), parseDate) <==>
      exists t :: t in OwnedTransactions(bk.transactions, uid) && row == JoinRow(bk, t)
  {
    var f := TxFilter(None, None, Missing, None, None);
    assert Trim("", IsPhpSpace) == "";
    forall t ensures Selected(t, uid, f, parseDate) <==> t.userId == uid {
    }
  }
}
